=== FILE: README.md ===
# Identity detection and response pipeline — a verified model

This project models the deterministic core of a small identity detection and
response pipeline built around sign-in and audit logs from an identity provider:

- the offline evidence provider, which answers time-window queries over the
  loaded sign-in and audit rows: per-user summaries, per-IP summaries, the
  newest sign-ins of a user and the newest audit rows;
- the offline investigation-bundle builder, which puts those answers together
  for the accounts and IPs of one incident;
- detection DET-01, "multiple failures followed by success from the same IP",
  as the local detection runner implements it;
- the confidence scorer of the triage summarizer, plus what the summarizer shows
  of its result: at most ten rationale lines, at most eight audit rows and
  placeholder lines for empty lists;
- the parts of the repository-dispatch payload that have structure: the
  nested-dictionary lookup, the audit section capped at eight rows, the
  `- N/A` fallbacks and the fallback chain for the payload time.

Modules, one per source component:

| module | file | models |
|---|---|---|
| `Records` | records.dfy | sign-in and audit rows, JSON values and Python truthiness |
| `Seqs` | seqs.dfy | filter, count, stable sort, Python slicing, take-newest |
| `Strings` | strings.dfy | string order, `sorted(set(...))`, ASCII `lower()`, substring search |
| `Provider` | provider.dfy | the offline evidence provider |
| `BundleBuilder` | bundle.dfy | the offline investigation-bundle builder |
| `Detections` | detections.dfy | DET-01 |
| `Scoring` | scoring.dfy | the confidence scorer |
| `Listing` | listing.dfy | rendered lists with a placeholder line |
| `Summary` | summary.dfy | the triage summary's lists |
| `Dispatch` | dispatch.dfy | the repository-dispatch payload |

Modelling choices:

- A timestamp is an integer number of seconds. The logs write instants in the
  fixed `YYYY-MM-DDTHH:MM:SSZ` shape. For that shape, sorting the strings and
  comparing the parsed instants give the same order, so one integer stands for
  both.
- Python's `list.sort` is stable, including with `reverse=True`. It is modelled
  as a stable insertion sort: ascending on the time for DET-01, ascending on the
  negated time for the newest-first queries.
- Row fields that are compared with a queried value (UPN, IP) are `Option`, so
  an absent field never matches a query. The app name and the client app are
  strings, with an absent field read as `""`: the client app is only
  lower-cased and searched, and an app name counts only when non-empty, so
  `""` and absent agree. A non-empty app name is collected into the app lists
  of both summaries.
- A rationale entry is a structured `Reason` that carries the values its text
  would print. A rendered line carries the item it renders rather than its
  text.
- The clock reading the source takes itself is a parameter: `generatedAt` of
  the bundle builder, `now` of the dispatch payload.

Where the repository's description and its code differ, the model follows the
code:

- DET-01 examines one given IP, by default `203.0.113.77`, over all rows
  regardless of time. It does not group rows per IP.
- The scorer adds a detection's weight once for each occurrence of its id, not
  once per distinct id.
- A row without `TimeGenerated` makes the code raise, rather than being left
  out of the window, but only where the time is read. The per-user and per-IP
  queries test the UPN or IP first and read the time only when that matches, so
  only a row of the queried user or IP raises. The audit query reads the time
  of every audit row. DET-01 sorts on the time of every row from its IP. The
  model's rows always carry a time, so this case does not arise.

## Model

| member | source | states |
|---|---|---|
| `Provider.RecentSigninsForUser` | enrichment-graph/src/investigation_bundle/offline_provider.py:40-46 | at most `limit` rows and exactly `min(limit, qualifying)`; every row is the user's and in the window; newest first; all qualifying rows when they fit; every row left out, counting duplicate copies of one row separately, is no newer than every row returned; rows that share a time keep their input order |
| `Provider.AuditEvents` | enrichment-graph/src/investigation_bundle/offline_provider.py:90-93 | the same for audit rows: in the window, newest first, `min(limit, qualifying)` rows, all of them when they fit, no row left out (duplicate copies counted separately) newer than a row returned, and rows that share a time in their input order |
| `Provider.SigninSummaryForUser` | enrichment-graph/src/investigation_bundle/offline_provider.py:48-69 | total is the number of the user's in-window rows; success counts error code 0 and failure counts the rest, and the two add up to total; legacy count is the number of rows whose lower-cased client app contains "legacy"; countries, IPs and apps are strictly sorted and hold exactly the values seen in those rows, with empty IPs and apps excluded |
| `Provider.IpSummaryFor` | enrichment-graph/src/investigation_bundle/offline_provider.py:71-88 | failures plus successes equal total; the targeted-user count is the number of distinct non-empty users, with no cap; the users list holds the least `min(count, 20)` of them, sorted; the apps list likewise holds the least `min(count, 20)` of the distinct non-empty app names from the IP, sorted; countries are exactly those seen |
| `Provider.Distinct` | enrichment-graph/src/investigation_bundle/offline_provider.py:55-57 | the set-then-sort of a field over the selected rows is strictly sorted and holds exactly the values some selected row yields |
| `Provider.DistinctUnique` | enrichment-graph/src/investigation_bundle/offline_provider.py:55-57 | any strictly ascending listing of the same values equals the set-then-sort result, so that result is the only such listing |
| `Provider.DistinctUsers` | enrichment-graph/src/investigation_bundle/offline_provider.py:75-84 | the sorted user list has exactly the distinct users from the IP as members, and as many entries as there are distinct users |
| `Provider.CappedPrefix` | enrichment-graph/src/investigation_bundle/offline_provider.py:85-87 | the first 20 entries of a strictly sorted list stay strictly sorted and are less than every entry they leave out |
| `Provider.UserSummaryIgnoresOtherRows` | enrichment-graph/src/investigation_bundle/offline_provider.py:49-51 | adding a row of another user, or a row outside the window, leaves the user summary unchanged |
| `Provider.IpSummaryIgnoresOtherRows` | enrichment-graph/src/investigation_bundle/offline_provider.py:72-72 | adding a row from another IP, or a row outside the window, leaves the IP summary unchanged |
| `Provider.IpSummaryRetarget` | enrichment-graph/src/investigation_bundle/offline_provider.py:72-74 | moving an in-window row of an IP to another address lowers that IP's total by one, and lowers its failures or its successes by one |
| `Provider.NewestSigninsTop` | enrichment-graph/src/investigation_bundle/offline_provider.py:45-46 | every qualifying row cut off by the limit, including a second copy of a kept row, is no newer than any row kept |
| `Provider.NewestAuditTop` | enrichment-graph/src/investigation_bundle/offline_provider.py:92-93 | every qualifying audit row cut off by the limit, including a second copy of a kept row, is no newer than any row kept |
| `Provider.InRangeInclusive` | enrichment-graph/src/investigation_bundle/offline_provider.py:36-38 | the window test admits both bounds and rejects every time before the start or after the end, and everything when the start is after the end |
| `Provider.LegacyAuthOccurrence` | enrichment-graph/src/investigation_bundle/offline_provider.py:58-58 | a row counts as legacy authentication exactly when "legacy" occurs at some offset of its lower-cased client app |
| `Provider.DistinctApps` | enrichment-graph/src/investigation_bundle/offline_provider.py:77-77 | the sorted app list has exactly the distinct non-empty app names from the IP, with no repeats |
| `Provider.Capped` | enrichment-graph/src/investigation_bundle/offline_provider.py:85-87 | the first 20 entries of a list holding one copy of each value of a set are its `min(count, 20)` least values, and every value left out is greater than every one kept |
| `Strings.SortedSet` | enrichment-graph/src/investigation_bundle/offline_provider.py:55-57 | `sorted(set(values))` is strictly ascending, so free of duplicates, and has exactly the values as members |
| `Strings.StrictlySortedCardinality` | enrichment-graph/src/investigation_bundle/offline_provider.py:84-84 | a strictly sorted list is as long as its set of elements, so `len(users)` counts distinct users |
| `Strings.Lower` | enrichment-graph/src/investigation_bundle/offline_provider.py:58-58 | lower-casing keeps the length and maps every upper-case ASCII letter to its lower-case letter, leaving other characters alone |
| `Strings.ContainsOccurrence` | enrichment-graph/src/investigation_bundle/offline_provider.py:58-58 | the left-to-right scan finds the substring exactly when it occurs at some position |
| `Seqs.Prefix` | enrichment-graph/src/investigation_bundle/offline_provider.py:46-46 | Python's `rows[:n]` is a prefix of length `min(n, len)` for `n >= 0`, and drops `-n` entries from the end for negative `n` |
| `Seqs.TakeSmallest` | enrichment-graph/src/investigation_bundle/offline_provider.py:45-46 | stable sort followed by a slice gives sorted rows drawn from the input, `min(n, len)` of them, all of them when they fit, and nothing smaller left out, counting copies with multiplicity; entries that share a key keep their input order |
| `Seqs.SortBy` | tools/local-kql/run_detections.py:31-31 | the sort yields an ordered permutation of its input |
| `Seqs.SortByStable` | tools/local-kql/run_detections.py:31-31 | the sort is stable: the entries of any one key come out in their input order |
| `Seqs.PrefixStable` | enrichment-graph/src/investigation_bundle/offline_provider.py:45-46 | after the sort and the slice, the entries of any one key are the first ones of that key in the input, in input order |
| `Seqs.SortByHead` | tools/local-kql/run_detections.py:31-31 | the stable sort puts first the earliest entry with the least key |
| `Seqs.SortByEnds` | tools/local-kql/run_detections.py:42-43 | the first and last entries after sorting come from the input and bound every key |
| `Seqs.CountComplement` | enrichment-graph/src/investigation_bundle/offline_provider.py:53-54 | counts under a predicate and under its negation add up to the length |
| `Detections.DetectFailuresThenSuccess` | tools/local-kql/run_detections.py:25-45 | at most one alert; none for an empty input; an alert names the given IP and the fixed title, counts at least the threshold of failures and has first time <= last time |
| `Detections.AlertFor` | tools/local-kql/run_detections.py:31-45 | the same over rows already selected for the IP |
| `Detections.SplitCounts` | tools/local-kql/run_detections.py:33-34 | the failure and success lists of the sorted rows are as long as the counts of failed and successful rows from the IP in the input |
| `Detections.Det01FiresIff` | tools/local-kql/run_detections.py:30-36 | an alert is raised if and only if the IP has at least the threshold of failures and at least one success |
| `Detections.Det01FailureCount` | tools/local-kql/run_detections.py:33-40 | the alert's failure count is the number of failed rows from the IP |
| `Detections.Det01ExampleUser` | tools/local-kql/run_detections.py:31-41 | the example user is that of the earliest success from the IP; of equal times, the one first in the input |
| `Detections.Det01TimeSpan` | tools/local-kql/run_detections.py:31-43 | the first and last times are times of rows from the IP, and every row from the IP lies between them |
| `Detections.Det01IgnoresOtherIps` | tools/local-kql/run_detections.py:30-30 | a row from another IP, inserted anywhere, never changes the result |
| `Detections.Det01FailuresThenOneSuccess` | tools/local-kql/run_detections.py:30-44 | a run of at least the threshold of failures followed by one success raises one alert that counts every failure and names that success's user |
| `Detections.Det01DefaultScenario` | tools/local-kql/generate_sample_logs.py:112-134 | fifteen failures from `203.0.113.77` followed by a success, against the default threshold of ten, raise one alert for that IP counting fifteen failures and naming the successful user |
| `BundleBuilder.BuildInvestigationBundle` | enrichment-graph/src/investigation_bundle/bundle_builder.py:26-77 | schema "1.0" and mode "offline"; incident fields and entity lists copied verbatim; exactly the four fixed recommended actions and the five fixed links; one summary per account and per IP in input order; recent sign-ins keyed by exactly the distinct accounts, each at most 50 of that user's in-window rows; at most 50 in-window audit rows |
| `BundleBuilder.GatherEvidence` | enrichment-graph/src/investigation_bundle/bundle_builder.py:31-38 | the evidence section alone: the same counts, keys, bounds and row membership |
| `BundleBuilder.AccountSummaries` | enrichment-graph/src/investigation_bundle/bundle_builder.py:31-31 | one summary per account, summary `i` naming account `i` and counting its in-window rows |
| `BundleBuilder.IpSummaries` | enrichment-graph/src/investigation_bundle/bundle_builder.py:32-32 | one summary per IP, summary `i` naming IP `i` and counting its in-window rows |
| `BundleBuilder.AccountSummariesAt` | enrichment-graph/src/investigation_bundle/bundle_builder.py:31-31 | summary `i` is the provider's summary of account `i` |
| `BundleBuilder.IpSummariesAt` | enrichment-graph/src/investigation_bundle/bundle_builder.py:32-32 | summary `i` is the provider's summary of IP `i` |
| `BundleBuilder.StoreEach` | enrichment-graph/src/investigation_bundle/bundle_builder.py:34-36 | the dictionary filled in a loop has the loop's keys added, each mapped to its value, and leaves the other keys alone |
| `BundleBuilder.RecordRecent` | enrichment-graph/src/investigation_bundle/bundle_builder.py:34-36 | keys are exactly the accounts; each value has at most 50 rows, all that user's and in the window |
| `BundleBuilder.BundleEvidence` | enrichment-graph/src/investigation_bundle/bundle_builder.py:31-38 | every piece of evidence is exactly the provider's answer: summary `i` of account or IP `i`, each account's 50 newest rows, the 50 newest audit rows |
| `BundleBuilder.StoreEachRepeat` | enrichment-graph/src/investigation_bundle/bundle_builder.py:35-36 | storing a key a second time leaves the dictionary as it was |
| `BundleBuilder.RecentIgnoresRepeats` | enrichment-graph/src/investigation_bundle/bundle_builder.py:34-36 | listing an account twice changes nothing in the recent-sign-in dictionary |
| `Scoring.Score` | ai-triage-summarizer/src/summarize.py:11-79 | the score is in 0..100 and is the sum of the rationale's entries capped at 100; that sum is at least the number of entries, and every entry adds a positive amount; the rationale is the detections' entries in list order, then each account's boosts in account order, then each IP's boosts in IP order; the label is that of the score |
| `Scoring.ScoreBundle` | ai-triage-summarizer/src/summarize.py:11-79 | the running-total computation with its loops gives the same score, label and rationale as the reason-by-reason definition |
| `Scoring.CollectReasons` | ai-triage-summarizer/src/summarize.py:20-66 | after the three loops the rationale is the detection, account and IP entries in order, and the running score is their sum |
| `Scoring.AddDetections` | ai-triage-summarizer/src/summarize.py:35-38 | the detection loop appends the entry of each known id in list order, and the score grows by their weights |
| `Scoring.AddAccountBoosts` | ai-triage-summarizer/src/summarize.py:43-55 | the account loop appends each account's boosts in account order, and the score grows by their points |
| `Scoring.AddAccountBoost` | ai-triage-summarizer/src/summarize.py:44-55 | one account's three checks append exactly that account's boosts, and the score grows by their points |
| `Scoring.AddBoost` | ai-triage-summarizer/src/summarize.py:47-49 | a guarded increment appends its entry exactly when the guard holds, and the score stays the sum of the entries |
| `Scoring.AddIpBoosts` | ai-triage-summarizer/src/summarize.py:57-66 | the IP loop appends each IP's boosts in IP order, and the score grows by their points |
| `Scoring.AddIpBoost` | ai-triage-summarizer/src/summarize.py:58-66 | one IP's two checks append exactly that IP's boosts, and the score grows by their points |
| `Scoring.DetectionReason` | ai-triage-summarizer/src/summarize.py:24-38 | a known id yields one entry carrying its weight; an unknown id yields none |
| `Scoring.AccountReasons` | ai-triage-summarizer/src/summarize.py:43-55 | one account yields at most three entries, each an account boost worth 10 |
| `Scoring.AccountBoostsIff` | ai-triage-summarizer/src/summarize.py:47-55 | the high-failure, legacy-auth and non-home-country entries appear exactly when failure >= 10, legacy count > 0, and some non-empty country other than "CA" is listed |
| `Scoring.IpReasons` | ai-triage-summarizer/src/summarize.py:57-66 | one IP yields at most two entries, each an IP boost worth 15 |
| `Scoring.IpBoostsIff` | ai-triage-summarizer/src/summarize.py:61-66 | the pattern entry appears exactly when failures >= 10 and successes >= 1, and the targeted entry exactly when targeted users >= 5 |
| `Scoring.Clamp` | ai-triage-summarizer/src/summarize.py:68-69 | the clamp lands in 0..100, fixes values already there and maps values outside to the nearer bound |
| `Scoring.LabelOf` | ai-triage-summarizer/src/summarize.py:71-77 | High if and only if score >= 80; Medium if and only if 50 <= score < 80; Low if and only if score < 50 |
| `Scoring.ReasonsShape` | ai-triage-summarizer/src/summarize.py:34-66 | every entry is well formed and positive, and the stages never go back from detections to accounts to IPs |
| `Scoring.TotalPositive` | ai-triage-summarizer/src/summarize.py:35-66 | entries that each add a positive amount sum to at least their number, so only the upper clamp can bind |
| `Scoring.DetectionsAdditive` | ai-triage-summarizer/src/summarize.py:35-38 | the entries and the points of two id lists joined are those of each list, joined and summed |
| `Scoring.DetectionOccurrence` | ai-triage-summarizer/src/summarize.py:35-38 | wherever an id occurs in the list, a known one adds one entry and its weight, duplicates included, and an unknown one adds nothing |
| `Scoring.SingleDetection` | ai-triage-summarizer/src/summarize.py:24-38 | a one-id list yields that id's entry, worth its weight if known and nothing otherwise |
| `Scoring.WeightsPositive` | ai-triage-summarizer/src/summarize.py:24-32 | every known detection weight is positive |
| `Scoring.AccountContribution` | ai-triage-summarizer/src/summarize.py:43-55 | one account contributes 0, 10, 20 or 30 points, ten per entry |
| `Scoring.IpContribution` | ai-triage-summarizer/src/summarize.py:57-66 | one IP contributes 0, 15 or 30 points |
| `Scoring.AbsentEvidenceScoresNothing` | ai-triage-summarizer/src/summarize.py:41-66 | accounts and IPs with every count and list missing add no entry, so the rationale is that of the detections alone |
| `Scoring.MoreDetectionsNeverLower` | ai-triage-summarizer/src/summarize.py:35-69 | reporting one more detection id never lowers the score |
| `Scoring.ScoreMonotone` | ai-triage-summarizer/src/summarize.py:68-69 | a larger unclamped sum never gives a lower clamped score |
| `Scoring.HomeAccountExample` | ai-triage-summarizer/src/summarize.py:43-77 | one account with 10 failures, no legacy auth and only "CA" scores 10, labelled Low, with the single high-failure entry |
| `Summary.ScoreInputOf` | ai-triage-summarizer/src/summarize.py:40-46 | the scorer sees the incident's detections and one evidence record per account summary and per IP summary, in the bundle's order, each carrying that summary's counts and countries |
| `Summary.Summarize` | ai-triage-summarizer/src/summarize.py:81-162 | the shown score is in 0..100 with its label; the rationale shows the placeholder exactly when there is no entry, otherwise exactly the first `min(n, 10)` entries in order; the audit part shows its placeholder exactly when there is no row, otherwise exactly the first `min(n, 8)` rows; accounts, IPs and links show "- N/A" exactly when empty, otherwise exactly one line per item, in order |
| `Summary.SummaryShows` | ai-triage-summarizer/src/summarize.py:116-160 | the summary shows exactly the first 10 rationale entries, the first 8 audit rows and every account summary, IP summary and link, in order |
| `Summary.BuiltAccountBoosts` | ai-triage-summarizer/src/summarize.py:43-55 | on a bundle built offline, account `i` draws each boost exactly when its in-window rows call for it: 10 or more failures, any legacy-auth sign-in, or a sign-in from a non-empty country other than "CA" |
| `Summary.SummaryBoosts` | enrichment-graph/src/investigation_bundle/offline_provider.py:53-58 | the scorer reads from a user summary the failure count of the user's in-window rows, their legacy-auth count and whether any of them comes from abroad |
| `Summary.ForeignIff` | enrichment-graph/src/investigation_bundle/offline_provider.py:55-55 | a list holding exactly the countries of a user's rows has a foreign entry if and only if one of those rows comes from abroad |
| `Listing.Listed` | ai-triage-summarizer/src/summarize.py:125-129 | an empty list renders as the placeholder alone; otherwise one line per item, in order |
| `Listing.ListedFirst` | ai-triage-summarizer/src/summarize.py:116-120 | an empty list renders as the placeholder alone; otherwise one line for each of the first `cap` items, in order |
| `Listing.ItemsListed` | enrichment-graph/src/make_github_dispatch_payload.py:60-60 | the lines of a listing show exactly its items, none dropped or invented |
| `Listing.ItemsListedFirst` | ai-triage-summarizer/src/summarize.py:141-145 | the lines of a capped listing show exactly the first `cap` items |
| `Dispatch.SafeGet` | enrichment-graph/src/make_github_dispatch_payload.py:10-16 | with no keys the input comes back; the default comes back as soon as the current value is not an object or lacks the next key |
| `Dispatch.SafeGetNest` | enrichment-graph/src/make_github_dispatch_payload.py:10-16 | a value nested under a path is reached and found, whatever the default |
| `Dispatch.SafeGetReaches` | enrichment-graph/src/make_github_dispatch_payload.py:12-16 | on a complete path the result does not depend on the default; on a broken path it is the default |
| `Dispatch.SafeGetConcat` | enrichment-graph/src/make_github_dispatch_payload.py:12-16 | a lookup along two joined paths is the lookup of the second in what the first reaches, or the default when the first is broken |
| `Dispatch.InitiatorOf` | enrichment-graph/src/make_github_dispatch_payload.py:42-42 | the initiator is always truthy: the user principal name found under the path when it is truthy, and "N/A" when the path is missing or leads to a falsy value |
| `Dispatch.AuditLineOf` | enrichment-graph/src/make_github_dispatch_payload.py:39-43 | a line keeps the row's time, shows the operation and the result or "N/A" for each one missing, and always shows a truthy initiator |
| `Dispatch.FmtAuditEvents` | enrichment-graph/src/make_github_dispatch_payload.py:34-44 | an empty list gives the single line "- None in time window"; otherwise one line for each of the first `min(len, 8)` rows, in order |
| `Dispatch.PayloadTime` | enrichment-graph/src/make_github_dispatch_payload.py:73-73 | the payload time is the incident end when it is non-empty, otherwise the generation time, otherwise the clock reading; it is empty only when all three are |
| `Dispatch.BuildDispatchPayload` | enrichment-graph/src/make_github_dispatch_payload.py:46-80 | the event type is "sentinel_ticket"; title, severity, accounts, IPs and detections pass through unchanged; the account and IP sections are "- N/A" exactly when their summary list is empty; the audit section is its placeholder exactly when there are no rows, and otherwise is exactly the formatted audit rows, `min(n, 8)` lines; a non-empty account or IP list gives exactly one line per summary, in order |
| `Dispatch.EnrichmentShows` | enrichment-graph/src/make_github_dispatch_payload.py:58-66 | the enrichment lists every account and IP summary and the first eight audit rows, in order |

## Left out

- Loading the JSON-lines files, argument parsing, writing outputs and every
  `main()`: these are file I/O. The loaded rows are parameters.
- The sample-log generator: it is random-seeded synthetic data with file
  writes, and there is nothing pure to state about it.
- `_parse_time` and `_dt`: timestamp parsing is done by a library. The model
  receives integer instants, and window bounds that are already parsed.
- Reading the clock: `datetime.now` becomes the `generatedAt` and `now`
  parameters.
- The text of rendered lines, headings and blank lines. A rationale entry is a
  `Reason` and a line is the item it renders; line counts, order and
  placeholders are modelled.
- The enrichment text is three lists of lines, one per section. Joining them
  with newlines and headings is not modelled.
- Detections DET-02 to DET-07: the code only names them as scorer weights and
  implements no rule for them.
- Python failures outside the modelled inputs:
  - `int()` of a non-integer error code or summary field;
  - a row with a `Location` but no `countryOrRegion`, where sorting `None`
    among strings raises;
  - a bundle field present as `null`.

  The model's fields are typed, so none of these can arise.
- The defaults of `incident.get("title", ...)` and similar lookups in the
  summary and the payload. A typed bundle always has those fields.
- `Dispatch.AuditLineOf`: an `OperationName` or `Result` that is present as
  `null` prints as `None` in Python. The model treats it as missing and shows
  "N/A".
- `Strings.Lower`: does not model Python's full Unicode case mapping, because
  `ClientAppUsed` values are ASCII client names. Only ASCII letters are folded.
- `BundleBuilder.RecordRecent`: the dictionary is a map, so its insertion order
  is not modelled.
- `Summary.Summarize`: the reference links are a sequence of pairs in
  insertion order rather than a dictionary.

=== FILE: bundle.dfy ===
/** Offline assembly of an investigation bundle: the provider's queries run
    over the accounts and IPs of an incident, together with the incident
    context, fixed recommendations and reference links. */
module BundleBuilder {
  import opened Records
  import opened Seqs
  import Provider

  const SchemaVersion: string := "1.0"
  const OfflineMode: string := "offline"

  /** Row limit of the recent sign-ins per account and of the audit rows. */
  const EvidenceLimit: int := 50

  const RecommendedActions: seq<string> := [
    "Review Identity Investigations workbook: User timeline + Audit timeline for primary account.",
    "Validate whether any privileged changes (roles/consent/credentials/MFA) occurred near the incident time.",
    "If suspicious and approved: execute PB-02 Manual Containment steps (disable user sign-in, revoke sessions, revoke consent, remove role assignments).",
    "Document outcome and tuning notes in the case study."
  ]

  /** The reference links, in insertion order. */
  const Links: seq<(string, string)> := [
    ("workbook", "/workbooks/identity-investigations/"),
    ("detections", "/detections-kql/"),
    ("runbook", "/docs/runbook.md"),
    ("soar_pb01", "/playbooks-soar/PB-01-enrich-and-ticket/"),
    ("soar_pb02", "/playbooks-soar/PB-02-manual-containment/")
  ]

  /** What the caller knows about the incident. The window bounds are kept
      as the text they were given in; the builder also receives them
      parsed. */
  datatype IncidentContext = IncidentContext(
    incidentId: string,
    title: string,
    severity: string,
    timeStart: string,
    timeEnd: string,
    detections: seq<string>,
    accounts: seq<string>,
    ips: seq<string>)

  datatype Incident = Incident(
    id: string,
    title: string,
    severity: string,
    timeStart: string,
    timeEnd: string,
    detections: seq<string>)

  datatype Entities = Entities(accounts: seq<string>, ips: seq<string>)

  datatype Evidence = Evidence(
    accountSummaries: seq<Provider.UserSummary>,
    ipSummaries: seq<Provider.IpSummary>,
    recentSignins: map<string, seq<SignIn>>,
    auditEvents: seq<AuditEvent>)

  datatype Bundle = Bundle(
    schemaVersion: string,
    generatedAt: string,
    mode: string,
    incident: Incident,
    entities: Entities,
    evidence: Evidence,
    recommendedActions: seq<string>,
    links: seq<(string, string)>)

  /** One user summary per account, in the accounts' order. */
  function AccountSummaries(signins: seq<SignIn>, accounts: seq<string>, start: Time, end: Time)
    : (r: seq<Provider.UserSummary>)
    ensures |r| == |accounts|
    ensures forall i :: 0 <= i < |r| ==>
              r[i].user == accounts[i]
              && r[i].total == Count(signins, Provider.ForUser(accounts[i], start, end))
  {
    if |accounts| == 0 then []
    else [Provider.SigninSummaryForUser(signins, accounts[0], start, end)]
         + AccountSummaries(signins, accounts[1..], start, end)
  }

  /** One IP summary per address, in the addresses' order. */
  function IpSummaries(signins: seq<SignIn>, ips: seq<string>, start: Time, end: Time)
    : (r: seq<Provider.IpSummary>)
    ensures |r| == |ips|
    ensures forall i :: 0 <= i < |r| ==>
              r[i].ip == ips[i]
              && r[i].total == Count(signins, Provider.ForIp(ips[i], start, end))
  {
    if |ips| == 0 then []
    else [Provider.IpSummaryFor(signins, ips[0], start, end)]
         + IpSummaries(signins, ips[1..], start, end)
  }

  /** Entry `i` of the summaries is the provider's summary of account `i`. */
  lemma {:induction false} AccountSummariesAt(signins: seq<SignIn>, accounts: seq<string>, start: Time, end: Time, i: int)
    requires 0 <= i < |accounts|
    ensures AccountSummaries(signins, accounts, start, end)[i]
         == Provider.SigninSummaryForUser(signins, accounts[i], start, end)
  {
    if i > 0 {
      AccountSummariesAt(signins, accounts[1..], start, end, i - 1);
    }
  }

  lemma {:induction false} IpSummariesAt(signins: seq<SignIn>, ips: seq<string>, start: Time, end: Time, i: int)
    requires 0 <= i < |ips|
    ensures IpSummaries(signins, ips, start, end)[i] == Provider.IpSummaryFor(signins, ips[i], start, end)
  {
    if i > 0 {
      IpSummariesAt(signins, ips[1..], start, end, i - 1);
    }
  }

  /** The dictionary after a loop that stores `f(k)` under each key of
      `keys` in turn, starting from `m`; a repeated key is stored again with
      the same value. */
  function StoreEach<V>(keys: seq<string>, f: string -> V, m: map<string, V>): (r: map<string, V>)
    ensures r.Keys == m.Keys + set k | k in keys
    ensures forall k :: k in keys ==> r[k] == f(k)
    ensures forall k :: k in m && k !in keys ==> r[k] == m[k]
  {
    if |keys| == 0 then m
    else
      assert keys == [keys[0]] + keys[1..];
      StoreEach(keys[1..], f, m[keys[0] := f(keys[0])])
  }

  function RecentFor(signins: seq<SignIn>, start: Time, end: Time): string -> seq<SignIn>
  {
    u => Provider.RecentSigninsForUser(signins, u, start, end, EvidenceLimit)
  }

  /** The recent-sign-in dictionary for `accounts`. */
  function RecordRecent(signins: seq<SignIn>, accounts: seq<string>, start: Time, end: Time)
    : (r: map<string, seq<SignIn>>)
    ensures r.Keys == set u | u in accounts
    ensures forall u :: u in r ==> |r[u]| <= EvidenceLimit
    ensures forall u, x :: u in r && x in r[u] ==> x in signins && Provider.UserRowIn(x, u, start, end)
  {
    var r := StoreEach(accounts, RecentFor(signins, start, end), map[]);
    forall u | u in r
      ensures |r[u]| <= EvidenceLimit
      ensures forall x :: x in r[u] ==> x in signins && Provider.UserRowIn(x, u, start, end)
    {
      assert r[u] == Provider.RecentSigninsForUser(signins, u, start, end, EvidenceLimit);
    }
    r
  }

  /** `build_investigation_bundle_offline`. The window bounds arrive
      parsed; `generatedAt` is the clock reading the source takes itself. */
  function BuildInvestigationBundle(ctx: IncidentContext, start: Time, end: Time,
                                    signins: seq<SignIn>, audit: seq<AuditEvent>,
                                    generatedAt: string): (b: Bundle)
    ensures b.schemaVersion == SchemaVersion && b.mode == OfflineMode && b.generatedAt == generatedAt
    ensures b.incident == Incident(ctx.incidentId, ctx.title, ctx.severity, ctx.timeStart, ctx.timeEnd,
                                   ctx.detections)
    ensures b.entities == Entities(ctx.accounts, ctx.ips)
    ensures |b.recommendedActions| == 4 && |b.links| == 5
    ensures b.recommendedActions == RecommendedActions && b.links == Links
    ensures |b.evidence.accountSummaries| == |ctx.accounts|
    ensures forall i :: 0 <= i < |ctx.accounts| ==>
              b.evidence.accountSummaries[i].user == ctx.accounts[i]
    ensures |b.evidence.ipSummaries| == |ctx.ips|
    ensures forall i :: 0 <= i < |ctx.ips| ==> b.evidence.ipSummaries[i].ip == ctx.ips[i]
    ensures b.evidence.recentSignins.Keys == set u | u in ctx.accounts
    ensures forall u :: u in b.evidence.recentSignins ==>
              |b.evidence.recentSignins[u]| <= EvidenceLimit
              && forall x :: x in b.evidence.recentSignins[u] ==>
                   x in signins && Provider.UserRowIn(x, u, start, end)
    ensures |b.evidence.auditEvents| <= EvidenceLimit
    ensures forall x :: x in b.evidence.auditEvents ==> x in audit && Provider.InRange(x.time, start, end)
  {
    Bundle(
      schemaVersion := SchemaVersion,
      generatedAt := generatedAt,
      mode := OfflineMode,
      incident := Incident(ctx.incidentId, ctx.title, ctx.severity, ctx.timeStart, ctx.timeEnd, ctx.detections),
      entities := Entities(ctx.accounts, ctx.ips),
      evidence := GatherEvidence(ctx.accounts, ctx.ips, start, end, signins, audit),
      recommendedActions := RecommendedActions,
      links := Links)
  }

  /** The evidence section: the provider's answers for the accounts and IPs. */
  function GatherEvidence(accounts: seq<string>, ips: seq<string>, start: Time, end: Time,
                          signins: seq<SignIn>, audit: seq<AuditEvent>): (e: Evidence)
    ensures |e.accountSummaries| == |accounts|
    ensures forall i :: 0 <= i < |accounts| ==> e.accountSummaries[i].user == accounts[i]
    ensures |e.ipSummaries| == |ips|
    ensures forall i :: 0 <= i < |ips| ==> e.ipSummaries[i].ip == ips[i]
    ensures e.recentSignins.Keys == set u | u in accounts
    ensures forall u :: u in e.recentSignins ==>
              |e.recentSignins[u]| <= EvidenceLimit
              && forall x :: x in e.recentSignins[u] ==> x in signins && Provider.UserRowIn(x, u, start, end)
    ensures |e.auditEvents| <= EvidenceLimit
    ensures forall x :: x in e.auditEvents ==> x in audit && Provider.InRange(x.time, start, end)
  {
    Evidence(
      accountSummaries := AccountSummaries(signins, accounts, start, end),
      ipSummaries := IpSummaries(signins, ips, start, end),
      recentSignins := RecordRecent(signins, accounts, start, end),
      auditEvents := Provider.AuditEvents(audit, start, end, EvidenceLimit))
  }

  /** The bundle's evidence is exactly the provider's answers: summary `i`
      is that of account or IP `i`, each account's recent rows are its 50
      newest in-window rows and the audit rows are the 50 newest. */
  lemma BundleEvidence(ctx: IncidentContext, start: Time, end: Time,
                       signins: seq<SignIn>, audit: seq<AuditEvent>, generatedAt: string)
    ensures var e := BuildInvestigationBundle(ctx, start, end, signins, audit, generatedAt).evidence;
      && (forall i :: 0 <= i < |ctx.accounts| ==>
            e.accountSummaries[i] == Provider.SigninSummaryForUser(signins, ctx.accounts[i], start, end))
      && (forall i :: 0 <= i < |ctx.ips| ==>
            e.ipSummaries[i] == Provider.IpSummaryFor(signins, ctx.ips[i], start, end))
      && (forall u :: u in ctx.accounts ==>
            u in e.recentSignins
            && e.recentSignins[u] == Provider.RecentSigninsForUser(signins, u, start, end, EvidenceLimit))
      && e.auditEvents == Provider.AuditEvents(audit, start, end, EvidenceLimit)
  {
    forall i | 0 <= i < |ctx.accounts|
      ensures AccountSummaries(signins, ctx.accounts, start, end)[i]
           == Provider.SigninSummaryForUser(signins, ctx.accounts[i], start, end)
    {
      AccountSummariesAt(signins, ctx.accounts, start, end, i);
    }
    forall i | 0 <= i < |ctx.ips|
      ensures IpSummaries(signins, ctx.ips, start, end)[i] == Provider.IpSummaryFor(signins, ctx.ips[i], start, end)
    {
      IpSummariesAt(signins, ctx.ips, start, end, i);
    }
  }

  /** Storing a key again that the loop has already stored changes
      nothing. */
  lemma StoreEachRepeat<V>(keys: seq<string>, f: string -> V, k: string)
    requires k in keys
    ensures StoreEach(keys + [k], f, map[]) == StoreEach(keys, f, map[])
  {
    var once := StoreEach(keys, f, map[]);
    var twice := StoreEach(keys + [k], f, map[]);
    assert (set v | v in keys + [k]) == set v | v in keys;
    forall v | v in twice
      ensures twice[v] == once[v]
    {
      assert v in keys + [k];
    }
  }

  /** Listing an account twice changes neither the recent-sign-in keys nor
      their rows. */
  lemma RecentIgnoresRepeats(signins: seq<SignIn>, accounts: seq<string>, start: Time, end: Time, u: string)
    requires u in accounts
    ensures RecordRecent(signins, accounts + [u], start, end) == RecordRecent(signins, accounts, start, end)
  {
    StoreEachRepeat(accounts, RecentFor(signins, start, end), u);
  }
}

=== FILE: detections.dfy ===
/** Detection DET-01, "multiple failures followed by success from the same
    IP", as the local detection runner implements it: for one given IP (not
    grouped over all IPs), over all sign-in rows regardless of time. */
module Detections {
  import opened Records
  import opened Seqs

  const DefaultIp: string := "203.0.113.77"
  const DefaultFailThreshold: int := 10
  const AlertTitle: string := "Multiple failures followed by success from same IP"

  datatype Alert = Alert(
    title: string,
    ip: string,
    failureCount: nat,
    exampleUser: Option<string>,
    timeFirst: Time,
    timeLast: Time)

  function FromIp(ip: string): SignIn -> bool
  {
    (r: SignIn) => r.ip == Some(ip)
  }

  function FailedFrom(ip: string): SignIn -> bool
  {
    (r: SignIn) => r.ip == Some(ip) && Failed(r)
  }

  function SucceededFrom(ip: string): SignIn -> bool
  {
    (r: SignIn) => r.ip == Some(ip) && Succeeded(r)
  }

  function TimeOf(r: SignIn): int
  {
    r.time
  }

  /** `detection_failures_then_success`: the rows from `ip`, oldest first
      (stable), split into failures and successes; one alert when there are
      at least `failThreshold` failures and at least one success. */
  function DetectFailuresThenSuccess(signins: seq<SignIn>, ip: string, failThreshold: int)
    : (alerts: seq<Alert>)
    ensures |alerts| <= 1
    ensures |signins| == 0 ==> alerts == []
    ensures forall a :: a in alerts ==>
              a.ip == ip && a.title == AlertTitle && a.timeFirst <= a.timeLast && a.failureCount >= failThreshold
  {
    AlertFor(Filter(signins, FromIp(ip)), ip, failThreshold)
  }

  /** The decision over the rows already selected for the IP. */
  function AlertFor(fromIp: seq<SignIn>, ip: string, failThreshold: int): (alerts: seq<Alert>)
    ensures |alerts| <= 1
    ensures |fromIp| == 0 ==> alerts == []
    ensures forall a :: a in alerts ==>
              a.ip == ip && a.title == AlertTitle && a.timeFirst <= a.timeLast && a.failureCount >= failThreshold
  {
    var events := SortBy(fromIp, TimeOf);
    var failures := Filter(events, Failed);
    var successes := Filter(events, Succeeded);
    if |failures| >= failThreshold && |successes| > 0 then
      SortByEnds(fromIp, TimeOf);
      [Alert(
        title := AlertTitle,
        ip := ip,
        failureCount := |failures|,
        exampleUser := successes[0].upn,
        timeFirst := events[0].time,
        timeLast := events[|events| - 1].time)]
    else
      []
  }

  /** The sorted split counts the same rows as the unsorted input. */
  lemma SplitCounts(signins: seq<SignIn>, ip: string)
    ensures |Filter(SortBy(Filter(signins, FromIp(ip)), TimeOf), Failed)| == Count(signins, FailedFrom(ip))
    ensures |Filter(SortBy(Filter(signins, FromIp(ip)), TimeOf), Succeeded)| == Count(signins, SucceededFrom(ip))
  {
    var fromIp := Filter(signins, FromIp(ip));
    CountSortBy(fromIp, TimeOf, Failed);
    CountSortBy(fromIp, TimeOf, Succeeded);
    FilterFilter(signins, FromIp(ip), Failed, FailedFrom(ip));
    FilterFilter(signins, FromIp(ip), Succeeded, SucceededFrom(ip));
  }

  /** DET-01 fires exactly when the IP has at least `failThreshold` failed
      and at least one successful sign-in. */
  lemma Det01FiresIff(signins: seq<SignIn>, ip: string, failThreshold: int)
    ensures DetectFailuresThenSuccess(signins, ip, failThreshold) != []
        <==> Count(signins, FailedFrom(ip)) >= failThreshold && Count(signins, SucceededFrom(ip)) >= 1
  {
    SplitCounts(signins, ip);
  }

  /** The alert reports every failed sign-in from the IP. */
  lemma Det01FailureCount(signins: seq<SignIn>, ip: string, failThreshold: int)
    requires DetectFailuresThenSuccess(signins, ip, failThreshold) != []
    ensures DetectFailuresThenSuccess(signins, ip, failThreshold)[0].failureCount
         == Count(signins, FailedFrom(ip))
  {
    SplitCounts(signins, ip);
  }

  /** The example user is that of the earliest success from the IP; among
      successes at the same instant, the one that comes first in the input. */
  lemma Det01ExampleUser(signins: seq<SignIn>, ip: string, failThreshold: int)
    requires DetectFailuresThenSuccess(signins, ip, failThreshold) != []
    ensures var wins := Filter(signins, SucceededFrom(ip));
      && |wins| > 0
      && DetectFailuresThenSuccess(signins, ip, failThreshold)[0].exampleUser
         == wins[FirstMinIndex(wins, TimeOf)].upn
  {
    var fromIp := Filter(signins, FromIp(ip));
    var wins := Filter(signins, SucceededFrom(ip));
    SplitCounts(signins, ip);
    FilterSortBy(fromIp, TimeOf, Succeeded);
    FilterFilter(signins, FromIp(ip), Succeeded, SucceededFrom(ip));
    assert Filter(SortBy(fromIp, TimeOf), Succeeded) == SortBy(wins, TimeOf);
    SortByHead(wins, TimeOf);
  }

  /** The alert's time span runs from the earliest to the latest sign-in
      from the IP, failures and successes alike. */
  lemma Det01TimeSpan(signins: seq<SignIn>, ip: string, failThreshold: int)
    requires DetectFailuresThenSuccess(signins, ip, failThreshold) != []
    ensures var a := DetectFailuresThenSuccess(signins, ip, failThreshold)[0];
      && (exists r :: r in signins && r.ip == Some(ip) && r.time == a.timeFirst)
      && (exists r :: r in signins && r.ip == Some(ip) && r.time == a.timeLast)
      && (forall r :: r in signins && r.ip == Some(ip) ==> a.timeFirst <= r.time <= a.timeLast)
  {
    var fromIp := Filter(signins, FromIp(ip));
    var events := SortBy(fromIp, TimeOf);
    FilterMembers(signins, FromIp(ip));
    SortByEnds(fromIp, TimeOf);
    forall r | r in signins && r.ip == Some(ip)
      ensures events[0].time <= r.time <= events[|events| - 1].time
    {
      assert r in fromIp;
      var k :| 0 <= k < |fromIp| && fromIp[k] == r;
    }
  }

  /** A sign-in from another IP never changes the outcome. */
  lemma Det01IgnoresOtherIps(before: seq<SignIn>, e: SignIn, after: seq<SignIn>, ip: string, failThreshold: int)
    requires e.ip != Some(ip)
    ensures DetectFailuresThenSuccess(before + [e] + after, ip, failThreshold)
         == DetectFailuresThenSuccess(before + after, ip, failThreshold)
  {
    FilterSkip(before, e, after, FromIp(ip));
  }

  /** A run of failures from the IP followed by one success, as many
      failures as the threshold or more: one alert, counting every failure
      and naming the user of that success. */
  lemma Det01FailuresThenOneSuccess(fails: seq<SignIn>, win: SignIn, ip: string, failThreshold: int)
    requires forall i :: 0 <= i < |fails| ==> fails[i].ip == Some(ip) && Failed(fails[i])
    requires win.ip == Some(ip) && Succeeded(win)
    requires |fails| >= failThreshold
    ensures var alerts := DetectFailuresThenSuccess(fails + [win], ip, failThreshold);
      && |alerts| == 1
      && alerts[0].failureCount == |fails|
      && alerts[0].exampleUser == win.upn
  {
    var s := fails + [win];
    FilterConcat(fails, [win], FailedFrom(ip));
    FilterConcat(fails, [win], SucceededFrom(ip));
    FilterAll(fails, FailedFrom(ip));
    FilterNone(fails, SucceededFrom(ip));
    assert [win][1..] == [];
    assert Filter([win], FailedFrom(ip)) == [];
    assert Filter([win], SucceededFrom(ip)) == [win];
    assert Filter(s, SucceededFrom(ip)) == [win];
    Det01FiresIff(s, ip, failThreshold);
    Det01FailureCount(s, ip, failThreshold);
    Det01ExampleUser(s, ip, failThreshold);
  }

  /** The default run: fifteen failures from the default IP followed by
      one success, against the default threshold of ten, raise one alert
      that counts all fifteen. */
  lemma Det01DefaultScenario(fails: seq<SignIn>, win: SignIn)
    requires |fails| == 15
    requires forall i :: 0 <= i < |fails| ==> fails[i].ip == Some(DefaultIp) && Failed(fails[i])
    requires win.ip == Some(DefaultIp) && Succeeded(win)
    ensures var alerts := DetectFailuresThenSuccess(fails + [win], DefaultIp, DefaultFailThreshold);
      && |alerts| == 1
      && alerts[0].ip == DefaultIp
      && alerts[0].failureCount == 15
      && alerts[0].exampleUser == win.upn
  {
    Det01FailuresThenOneSuccess(fails, win, DefaultIp, DefaultFailThreshold);
  }
}

=== FILE: dispatch.dfy ===
/** The repository-dispatch payload built from an investigation bundle: a
    fixed event type, the incident's title, severity and time, the entity
    and detection lists, and an enrichment text of account, IP and audit
    sections. */
module Dispatch {
  import opened Records
  import opened Listing
  import Seqs
  import Provider
  import BundleBuilder

  const EventType: string := "sentinel_ticket"
  const NotAvailable: string := "N/A"
  const NotAvailableLine: string := "- N/A"
  const NoAuditInWindow: string := "- None in time window"
  const AuditCap: nat := 8

  /** Path under `InitiatedBy` to the initiating user's principal name. */
  const InitiatorPath: seq<string> := ["user", "userPrincipalName"]

  /** `_safe_get`: follows `keys` through nested objects; `default` as
      soon as the current value is not an object or lacks the next key. */
  function SafeGet(d: Json, keys: seq<string>, default: Json): (r: Json)
    ensures |keys| == 0 ==> r == d
    ensures |keys| > 0 && !(d.JObj? && keys[0] in d.fields) ==> r == default
  {
    if |keys| == 0 then d
    else if d.JObj? && keys[0] in d.fields then SafeGet(d.fields[keys[0]], keys[1..], default)
    else default
  }

  /** Every key of the path is there, each inside an object. */
  predicate Reaches(d: Json, keys: seq<string>)
  {
    |keys| == 0 || (d.JObj? && keys[0] in d.fields && Reaches(d.fields[keys[0]], keys[1..]))
  }

  /** A value nested under `keys`, one single-key object per key. */
  function Nest(keys: seq<string>, v: Json): (d: Json)
    ensures |keys| > 0 ==> d.JObj? && d.fields.Keys == {keys[0]}
  {
    if |keys| == 0 then v else JObj(map[keys[0] := Nest(keys[1..], v)])
  }

  /** The lookup finds what `Nest` put there, whatever the default. */
  lemma {:induction false} SafeGetNest(keys: seq<string>, v: Json, default: Json)
    ensures Reaches(Nest(keys, v), keys)
    ensures SafeGet(Nest(keys, v), keys, default) == v
  {
    if |keys| > 0 {
      SafeGetNest(keys[1..], v, default);
    }
  }

  /** On a complete path the result does not depend on the default; on a
      broken one it is the default. */
  lemma {:induction false} SafeGetReaches(d: Json, keys: seq<string>, default: Json, other: Json)
    ensures Reaches(d, keys) ==> SafeGet(d, keys, default) == SafeGet(d, keys, other)
    ensures !Reaches(d, keys) ==> SafeGet(d, keys, default) == default
  {
    if |keys| > 0 && d.JObj? && keys[0] in d.fields {
      SafeGetReaches(d.fields[keys[0]], keys[1..], default, other);
    }
  }

  /** A lookup along `a + b` is the lookup of `b` in what `a` reaches, or the
      default when `a` is already broken. */
  lemma {:induction false} SafeGetConcat(d: Json, a: seq<string>, b: seq<string>, default: Json)
    ensures Reaches(d, a) ==> SafeGet(d, a + b, default) == SafeGet(SafeGet(d, a, default), b, default)
    ensures !Reaches(d, a) ==> SafeGet(d, a + b, default) == default
  {
    if |a| == 0 {
      assert a + b == b;
    } else {
      assert (a + b)[0] == a[0];
      assert (a + b)[1..] == a[1..] + b;
      if d.JObj? && a[0] in d.fields {
        SafeGetConcat(d.fields[a[0]], a[1..], b, default);
      }
    }
  }

  /** One audit row as its line shows it. */
  datatype AuditLine = AuditLine(time: Time, operation: string, result: string, initiator: Json)

  /** The initiating user's principal name, or "N/A" when the path is
      missing or leads to a value Python treats as false. */
  function InitiatorOf(e: AuditEvent): (j: Json)
    ensures Truthy(j)
    ensures e.initiatedBy.Some? && Reaches(e.initiatedBy.value, InitiatorPath)
              && Truthy(SafeGet(e.initiatedBy.value, InitiatorPath, JNull))
            ==> j == SafeGet(e.initiatedBy.value, InitiatorPath, JNull)
    ensures e.initiatedBy.None? || !Reaches(e.initiatedBy.value, InitiatorPath) ==> j == JStr(NotAvailable)
    ensures !(e.initiatedBy.Some? && Truthy(SafeGet(e.initiatedBy.value, InitiatorPath, JNull)))
            ==> j == JStr(NotAvailable)
  {
    match e.initiatedBy
    case None => JStr(NotAvailable)
    case Some(raw) =>
      SafeGetReaches(raw, InitiatorPath, JNull, JNull);
      var found := SafeGet(raw, InitiatorPath, JNull);
      if Truthy(found) then found else JStr(NotAvailable)
  }

  function OrNotAvailable(o: Option<string>): string
  {
    match o
    case None => NotAvailable
    case Some(s) => s
  }

  /** One audit row as the payload shows it: its time, its operation and
      result or "N/A" for each one missing, and its initiator. */
  function AuditLineOf(e: AuditEvent): (l: AuditLine)
    ensures l.time == e.time
    ensures e.operationName.Some? ==> l.operation == e.operationName.value
    ensures e.operationName.None? ==> l.operation == NotAvailable
    ensures e.result.Some? ==> l.result == e.result.value
    ensures e.result.None? ==> l.result == NotAvailable
    ensures Truthy(l.initiator) && l.initiator == InitiatorOf(e)
  {
    AuditLine(e.time, OrNotAvailable(e.operationName), OrNotAvailable(e.result), InitiatorOf(e))
  }

  /** `_fmt_audit_events`: one line for each of the first eight rows, or the
      placeholder alone. */
  function FmtAuditEvents(events: seq<AuditEvent>): (lines: seq<Line<AuditLine>>)
    ensures |events| == 0 ==> lines == [Placeholder(NoAuditInWindow)]
    ensures |events| > 0 ==> |lines| == if |events| < AuditCap then |events| else AuditCap
    ensures forall i :: 0 <= i < |events| && i < AuditCap ==> lines[i] == Entry(AuditLineOf(events[i]))
  {
    var shown := seq(|events|, i requires 0 <= i < |events| => AuditLineOf(events[i]));
    ListedFirst(shown, AuditCap, NoAuditInWindow)
  }

  /** The three sections of the enrichment text, in order: accounts, IPs,
      audit rows. The headings and blank lines between them are fixed. */
  datatype Enrichment = Enrichment(
    accountLines: seq<Line<Provider.UserSummary>>,
    ipLines: seq<Line<Provider.IpSummary>>,
    auditLines: seq<Line<AuditLine>>)

  datatype ClientPayload = ClientPayload(
    incidentTitle: string,
    severity: string,
    time: string,
    accounts: seq<string>,
    ips: seq<string>,
    detections: seq<string>,
    enrichment: Enrichment)

  datatype DispatchPayload = DispatchPayload(eventType: string, clientPayload: ClientPayload)

  /** `incident.time_end`, else the bundle's generation time, else the
      clock reading `now`; an empty string counts as missing. */
  function PayloadTime(b: BundleBuilder.Bundle, now: string): (t: string)
    ensures t == b.incident.timeEnd || t == b.generatedAt || t == now
    ensures b.incident.timeEnd != "" ==> t == b.incident.timeEnd
    ensures t == "" ==> b.incident.timeEnd == "" && b.generatedAt == "" && now == ""
    ensures b.incident.timeEnd == "" && b.generatedAt != "" ==> t == b.generatedAt
    ensures b.incident.timeEnd == "" && b.generatedAt == "" ==> t == now
  {
    if b.incident.timeEnd != "" then b.incident.timeEnd
    else if b.generatedAt != "" then b.generatedAt
    else now
  }

  /** `build_dispatch_payload`. */
  function BuildDispatchPayload(b: BundleBuilder.Bundle, now: string): (p: DispatchPayload)
    ensures p.eventType == EventType
    ensures p.clientPayload.incidentTitle == b.incident.title
    ensures p.clientPayload.severity == b.incident.severity
    ensures p.clientPayload.accounts == b.entities.accounts
    ensures p.clientPayload.ips == b.entities.ips
    ensures p.clientPayload.detections == b.incident.detections
    ensures b.evidence.accountSummaries == [] <==> p.clientPayload.enrichment.accountLines == [Placeholder(NotAvailableLine)]
    ensures b.evidence.ipSummaries == [] <==> p.clientPayload.enrichment.ipLines == [Placeholder(NotAvailableLine)]
    ensures b.evidence.auditEvents == [] <==> p.clientPayload.enrichment.auditLines == [Placeholder(NoAuditInWindow)]
    ensures 1 <= |p.clientPayload.enrichment.auditLines| <= AuditCap
    ensures p.clientPayload.enrichment.auditLines == FmtAuditEvents(b.evidence.auditEvents)
    ensures b.evidence.accountSummaries != [] ==> |p.clientPayload.enrichment.accountLines| == |b.evidence.accountSummaries|
    ensures forall i :: 0 <= i < |b.evidence.accountSummaries| ==>
              p.clientPayload.enrichment.accountLines[i] == Entry(b.evidence.accountSummaries[i])
    ensures b.evidence.ipSummaries != [] ==> |p.clientPayload.enrichment.ipLines| == |b.evidence.ipSummaries|
    ensures forall i :: 0 <= i < |b.evidence.ipSummaries| ==>
              p.clientPayload.enrichment.ipLines[i] == Entry(b.evidence.ipSummaries[i])
  {
    DispatchPayload(
      EventType,
      ClientPayload(
        incidentTitle := b.incident.title,
        severity := b.incident.severity,
        time := PayloadTime(b, now),
        accounts := b.entities.accounts,
        ips := b.entities.ips,
        detections := b.incident.detections,
        enrichment := Enrichment(
          Listed(b.evidence.accountSummaries, NotAvailableLine),
          Listed(b.evidence.ipSummaries, NotAvailableLine),
          FmtAuditEvents(b.evidence.auditEvents))))
  }

  /** The enrichment lists every account and IP summary and the first
      eight audit rows, in order. */
  lemma EnrichmentShows(b: BundleBuilder.Bundle, now: string)
    ensures var en := BuildDispatchPayload(b, now).clientPayload.enrichment;
      && Items(en.accountLines) == b.evidence.accountSummaries
      && Items(en.ipLines) == b.evidence.ipSummaries
      && |Items(en.auditLines)| == |Seqs.Prefix(b.evidence.auditEvents, AuditCap)|
      && forall i :: 0 <= i < |Items(en.auditLines)| ==> Items(en.auditLines)[i] == AuditLineOf(b.evidence.auditEvents[i])
  {
    var events := b.evidence.auditEvents;
    var shown := seq(|events|, i requires 0 <= i < |events| => AuditLineOf(events[i]));
    ItemsListed(b.evidence.accountSummaries, NotAvailableLine);
    ItemsListed(b.evidence.ipSummaries, NotAvailableLine);
    ItemsListedFirst(shown, AuditCap, NoAuditInWindow);
  }
}

=== FILE: listing.dfy ===
/** Rendered lists: one line per item, or a single placeholder line when
    there is nothing to show. The text of an item's line is not modelled;
    a line carries the item it renders. */
module Listing {
  import opened Seqs

  datatype Line<T> = Entry(item: T) | Placeholder(text: string)

  /** One entry line per item, in order. */
  function Entries<T>(items: seq<T>): (lines: seq<Line<T>>)
    ensures |lines| == |items|
    ensures forall i :: 0 <= i < |items| ==> lines[i] == Entry(items[i])
  {
    if |items| == 0 then [] else [Entry(items[0])] + Entries(items[1..])
  }

  /** The items behind the entry lines, placeholders skipped. */
  function Items<T>(lines: seq<Line<T>>): seq<T>
  {
    if |lines| == 0 then []
    else
      match lines[0]
      case Entry(x) => [x] + Items(lines[1..])
      case Placeholder(_) => Items(lines[1..])
  }

  /** The items' lines, or the placeholder alone when there are none. */
  function Listed<T>(items: seq<T>, placeholder: string): (lines: seq<Line<T>>)
    ensures |items| == 0 ==> lines == [Placeholder(placeholder)]
    ensures |items| > 0 ==> |lines| == |items|
    ensures forall i :: 0 <= i < |items| ==> lines[i] == Entry(items[i])
  {
    if |items| == 0 then [Placeholder(placeholder)] else Entries(items)
  }

  /** The lines of the first `cap` items, or the placeholder alone. */
  function ListedFirst<T>(items: seq<T>, cap: nat, placeholder: string): (lines: seq<Line<T>>)
    requires cap > 0
    ensures |items| == 0 ==> lines == [Placeholder(placeholder)]
    ensures |items| > 0 ==> |lines| == if |items| < cap then |items| else cap
    ensures forall i :: 0 <= i < |items| && i < cap ==> lines[i] == Entry(items[i])
  {
    Listed(Prefix(items, cap), placeholder)
  }

  /** Reading the items back from their lines gives the items. */
  lemma {:induction false} ItemsEntries<T>(items: seq<T>)
    ensures Items(Entries(items)) == items
  {
    if |items| > 0 {
      ItemsEntries(items[1..]);
      assert Entries(items)[1..] == Entries(items[1..]);
      assert items == [items[0]] + items[1..];
    }
  }

  /** A listing shows exactly the items, nothing dropped or invented. */
  lemma ItemsListed<T>(items: seq<T>, placeholder: string)
    ensures Items(Listed(items, placeholder)) == items
  {
    if |items| > 0 {
      ItemsEntries(items);
    } else {
      var one: seq<Line<T>> := [Placeholder(placeholder)];
      assert one[1..] == [];
    }
  }

  /** A capped listing shows exactly the first `cap` items. */
  lemma ItemsListedFirst<T>(items: seq<T>, cap: nat, placeholder: string)
    requires cap > 0
    ensures Items(ListedFirst(items, cap, placeholder)) == Prefix(items, cap)
  {
    ItemsListed(Prefix(items, cap), placeholder);
  }
}

=== FILE: provider.dfy ===
/** The offline evidence provider: time-window queries and per-user and
    per-IP summaries over the already-loaded sign-in and audit rows. The
    loaded lists are passed in as `signins` and `audit`; the window bounds
    are already-parsed instants. */
module Provider {
  import opened Records
  import opened Seqs
  import Strings

  /** Cap on the user and app lists of an IP summary. */
  const ListCap: nat := 20

  /** The window test is inclusive at both ends. */
  predicate InRange(t: Time, start: Time, end: Time)
  {
    start <= t <= end
  }

  predicate UserRowIn(r: SignIn, upn: string, start: Time, end: Time)
  {
    r.upn == Some(upn) && InRange(r.time, start, end)
  }

  predicate IpRowIn(r: SignIn, ip: string, start: Time, end: Time)
  {
    r.ip == Some(ip) && InRange(r.time, start, end)
  }

  function ForUser(upn: string, start: Time, end: Time): SignIn -> bool
  {
    r => UserRowIn(r, upn, start, end)
  }

  function ForIp(ip: string, start: Time, end: Time): SignIn -> bool
  {
    r => IpRowIn(r, ip, start, end)
  }

  /** Sort key that puts the newest row first. */
  function NewestFirst(r: SignIn): int
  {
    -r.time
  }

  function AuditNewestFirst(e: AuditEvent): int
  {
    -e.time
  }

  /** `ClientAppUsed`, lower-cased, contains "legacy". */
  predicate UsesLegacyAuth(r: SignIn)
  {
    Strings.Contains(Strings.Lower(r.clientApp), "legacy")
  }

  /** Field extractors for the de-duplicated lists: `None` where the
      source's comprehension skips the row. Countries are kept whenever a
      location is present, even an empty country; IPs, apps and users are
      kept only when non-empty. */
  function CountryOf(r: SignIn): Option<string>
  {
    r.country
  }

  function IpOf(r: SignIn): Option<string>
  {
    if Present(r.ip) then r.ip else None
  }

  function AppOf(r: SignIn): Option<string>
  {
    if r.app != "" then Some(r.app) else None
  }

  function UserOf(r: SignIn): Option<string>
  {
    if Present(r.upn) then r.upn else None
  }

  /** The values `f` yields over `rows`, in row order, duplicates kept. */
  function Collect(rows: seq<SignIn>, f: SignIn -> Option<string>): (r: seq<string>)
    ensures forall v :: v in r <==> exists k :: 0 <= k < |rows| && f(rows[k]) == Some(v)
  {
    if |rows| == 0 then []
    else
      var rest := Collect(rows[1..], f);
      assert forall v :: (exists k :: 0 <= k < |rows| - 1 && f(rows[1..][k]) == Some(v))
                     <==> (exists k :: 1 <= k < |rows| && f(rows[k]) == Some(v)) by {
        forall v
          ensures (exists k :: 0 <= k < |rows| - 1 && f(rows[1..][k]) == Some(v))
              <==> (exists k :: 1 <= k < |rows| && f(rows[k]) == Some(v))
        {
          if exists k :: 1 <= k < |rows| && f(rows[k]) == Some(v) {
            var k :| 1 <= k < |rows| && f(rows[k]) == Some(v);
            assert f(rows[1..][k - 1]) == Some(v);
          }
        }
      }
      match f(rows[0])
      case Some(v) => [v] + rest
      case None => rest
  }

  /** The distinct values `f` yields over the rows of `signins` that `p`
      selects, listed once each in ascending order. */
  lemma SortedValues(signins: seq<SignIn>, p: SignIn -> bool, f: SignIn -> Option<string>)
    ensures forall v :: v in Strings.SortedSet(Collect(Filter(signins, p), f))
                    <==> exists x :: x in signins && p(x) && f(x) == Some(v)
  {
    var rows := Filter(signins, p);
    FilterMembers(signins, p);
    forall v
      ensures (exists k :: 0 <= k < |rows| && f(rows[k]) == Some(v))
          <==> (exists x :: x in signins && p(x) && f(x) == Some(v))
    {
      if exists x :: x in signins && p(x) && f(x) == Some(v) {
        var x :| x in signins && p(x) && f(x) == Some(v);
        assert x in rows;
        var k :| 0 <= k < |rows| && rows[k] == x;
      }
    }
  }

  /** `sorted(set(...))` over the rows of `signins` that `p` selects: the
      distinct values `f` yields, once each in ascending order. */
  function Distinct(signins: seq<SignIn>, p: SignIn -> bool, f: SignIn -> Option<string>): (r: seq<string>)
    ensures Strings.StrictlySorted(r)
    ensures forall v :: v in r <==> exists x :: x in signins && p(x) && f(x) == Some(v)
  {
    SortedValues(signins, p, f);
    Strings.SortedSet(Collect(Filter(signins, p), f))
  }

  /** `sorted(set(...))` is the only strictly ascending listing of the
      values: any other such listing of the same values is equal to it. */
  lemma DistinctUnique(signins: seq<SignIn>, p: SignIn -> bool, f: SignIn -> Option<string>, t: seq<string>)
    requires Strings.StrictlySorted(t)
    requires forall v :: v in t <==> exists x :: x in signins && p(x) && f(x) == Some(v)
    ensures t == Distinct(signins, p, f)
  {
    Strings.StrictlySortedUnique(t, Distinct(signins, p, f));
  }

  /** `recent_signins_for_user`: the user's in-window rows, newest first,
      at most `limit` of them (Python slice semantics for `rows[:limit]`). */
  function RecentSigninsForUser(signins: seq<SignIn>, upn: string, start: Time, end: Time, limit: int)
    : (r: seq<SignIn>)
    ensures 0 <= limit ==> |r| == if limit < Count(signins, ForUser(upn, start, end))
                                  then limit else Count(signins, ForUser(upn, start, end))
    ensures forall i :: 0 <= i < |r| ==> r[i] in signins && UserRowIn(r[i], upn, start, end)
    ensures forall i, j :: 0 <= i < j < |r| ==> r[i].time >= r[j].time
    ensures (Count(signins, ForUser(upn, start, end)) <= limit
             ==> multiset(r) == multiset(Filter(signins, ForUser(upn, start, end))))
    ensures forall x, i :: x in multiset(Filter(signins, ForUser(upn, start, end))) - multiset(r) && 0 <= i < |r|
              ==> x.time <= r[i].time
    ensures forall k :: Filter(r, KeyIs(NewestFirst, k)) <= Filter(Filter(signins, ForUser(upn, start, end)), KeyIs(NewestFirst, k))
  {
    var rows := Filter(signins, ForUser(upn, start, end));
    var r := TakeSmallest(rows, NewestFirst, limit);
    NewestSigninsOrder(r);
    NewestSigninsMembers(signins, ForUser(upn, start, end), r);
    NewestSigninsTop(signins, ForUser(upn, start, end), limit);
    r
  }

  lemma NewestSigninsOrder(r: seq<SignIn>)
    requires SortedBy(r, NewestFirst)
    ensures forall i, j :: 0 <= i < j < |r| ==> r[i].time >= r[j].time
  {
    forall i, j | 0 <= i < j < |r|
      ensures r[i].time >= r[j].time
    {
      assert NewestFirst(r[i]) <= NewestFirst(r[j]);
    }
  }

  lemma NewestSigninsMembers(signins: seq<SignIn>, p: SignIn -> bool, r: seq<SignIn>)
    requires multiset(r) <= multiset(Filter(signins, p))
    ensures forall i :: 0 <= i < |r| ==> r[i] in signins && p(r[i])
  {
    FilterMembers(signins, p);
    SubMembers(r, Filter(signins, p));
  }

  lemma NewestSigninsTop(signins: seq<SignIn>, p: SignIn -> bool, limit: int)
    ensures forall x, i :: x in multiset(Filter(signins, p)) - multiset(TakeSmallest(Filter(signins, p), NewestFirst, limit))
                           && 0 <= i < |TakeSmallest(Filter(signins, p), NewestFirst, limit)|
              ==> x.time <= TakeSmallest(Filter(signins, p), NewestFirst, limit)[i].time
  {
    var rows := Filter(signins, p);
    var r := TakeSmallest(rows, NewestFirst, limit);
    forall x: SignIn, i | x in multiset(rows) - multiset(r) && 0 <= i < |r|
      ensures x.time <= r[i].time
    {
      assert NewestFirst(r[i]) <= NewestFirst(x);
    }
  }

  /** `audit_events`: the in-window audit rows, newest first, at most
      `limit` of them. */
  function AuditEvents(audit: seq<AuditEvent>, start: Time, end: Time, limit: int): (r: seq<AuditEvent>)
    ensures 0 <= limit ==> |r| == if limit < Count(audit, AuditIn(start, end))
                                  then limit else Count(audit, AuditIn(start, end))
    ensures forall i :: 0 <= i < |r| ==> r[i] in audit && InRange(r[i].time, start, end)
    ensures forall i, j :: 0 <= i < j < |r| ==> r[i].time >= r[j].time
    ensures (Count(audit, AuditIn(start, end)) <= limit
             ==> multiset(r) == multiset(Filter(audit, AuditIn(start, end))))
    ensures forall x, i :: x in multiset(Filter(audit, AuditIn(start, end))) - multiset(r) && 0 <= i < |r|
              ==> x.time <= r[i].time
    ensures forall k :: Filter(r, KeyIs(AuditNewestFirst, k)) <= Filter(Filter(audit, AuditIn(start, end)), KeyIs(AuditNewestFirst, k))
  {
    var rows := Filter(audit, AuditIn(start, end));
    var r := TakeSmallest(rows, AuditNewestFirst, limit);
    NewestAuditOrder(r);
    NewestAuditMembers(audit, start, end, r);
    NewestAuditTop(audit, start, end, limit);
    r
  }

  function AuditIn(start: Time, end: Time): AuditEvent -> bool
  {
    (e: AuditEvent) => InRange(e.time, start, end)
  }

  lemma NewestAuditOrder(r: seq<AuditEvent>)
    requires SortedBy(r, AuditNewestFirst)
    ensures forall i, j :: 0 <= i < j < |r| ==> r[i].time >= r[j].time
  {
    forall i, j | 0 <= i < j < |r|
      ensures r[i].time >= r[j].time
    {
      assert AuditNewestFirst(r[i]) <= AuditNewestFirst(r[j]);
    }
  }

  lemma NewestAuditMembers(audit: seq<AuditEvent>, start: Time, end: Time, r: seq<AuditEvent>)
    requires multiset(r) <= multiset(Filter(audit, AuditIn(start, end)))
    ensures forall i :: 0 <= i < |r| ==> r[i] in audit && InRange(r[i].time, start, end)
  {
    FilterMembers(audit, AuditIn(start, end));
    SubMembers(r, Filter(audit, AuditIn(start, end)));
    forall i | 0 <= i < |r|
      ensures r[i] in audit && InRange(r[i].time, start, end)
    {
      assert AuditIn(start, end)(r[i]);
    }
  }

  lemma NewestAuditTop(audit: seq<AuditEvent>, start: Time, end: Time, limit: int)
    ensures forall x, i :: x in multiset(Filter(audit, AuditIn(start, end)))
                             - multiset(TakeSmallest(Filter(audit, AuditIn(start, end)), AuditNewestFirst, limit))
                           && 0 <= i < |TakeSmallest(Filter(audit, AuditIn(start, end)), AuditNewestFirst, limit)|
              ==> x.time <= TakeSmallest(Filter(audit, AuditIn(start, end)), AuditNewestFirst, limit)[i].time
  {
    var rows := Filter(audit, AuditIn(start, end));
    var r := TakeSmallest(rows, AuditNewestFirst, limit);
    forall x: AuditEvent, i | x in multiset(rows) - multiset(r) && 0 <= i < |r|
      ensures x.time <= r[i].time
    {
      assert AuditNewestFirst(r[i]) <= AuditNewestFirst(x);
    }
  }

  lemma SubMembers<T>(a: seq<T>, b: seq<T>)
    requires multiset(a) <= multiset(b)
    ensures forall x :: x in a ==> x in b
  {
    forall x | x in a
      ensures x in b
    {
      assert x in multiset(a);
    }
  }

  datatype UserSummary = UserSummary(
    user: string,
    total: nat,
    success: nat,
    failure: nat,
    legacyAuthCount: nat,
    countries: seq<string>,
    ips: seq<string>,
    apps: seq<string>)

  /** `signin_summary_for_user`. */
  function SigninSummaryForUser(signins: seq<SignIn>, upn: string, start: Time, end: Time)
    : (r: UserSummary)
    ensures r.user == upn
    ensures r.total == Count(signins, ForUser(upn, start, end))
    ensures r.success + r.failure == r.total
    ensures r.success == Count(Filter(signins, ForUser(upn, start, end)), Succeeded)
    ensures r.failure == Count(Filter(signins, ForUser(upn, start, end)), Failed)
    ensures r.legacyAuthCount == Count(Filter(signins, ForUser(upn, start, end)), UsesLegacyAuth)
    ensures Strings.StrictlySorted(r.countries) && Strings.StrictlySorted(r.ips)
         && Strings.StrictlySorted(r.apps)
    ensures forall c :: c in r.countries
              <==> exists x :: x in signins && UserRowIn(x, upn, start, end) && x.country == Some(c)
    ensures forall a :: a in r.ips
              <==> exists x :: x in signins && UserRowIn(x, upn, start, end) && x.ip == Some(a) && a != ""
    ensures forall a :: a in r.apps
              <==> exists x :: x in signins && UserRowIn(x, upn, start, end) && x.app == a && a != ""
  {
    var rows := Filter(signins, ForUser(upn, start, end));
    CountComplement(rows, Succeeded, Failed);
    UserSummary(
      user := upn,
      total := |rows|,
      success := Count(rows, Succeeded),
      failure := Count(rows, Failed),
      legacyAuthCount := Count(rows, UsesLegacyAuth),
      countries := Distinct(signins, ForUser(upn, start, end), CountryOf),
      ips := Distinct(signins, ForUser(upn, start, end), IpOf),
      apps := Distinct(signins, ForUser(upn, start, end), AppOf))
  }

  datatype IpSummary = IpSummary(
    ip: string,
    total: nat,
    failures: nat,
    successes: nat,
    targetedUsersCount: nat,
    users: seq<string>,
    countries: seq<string>,
    apps: seq<string>)

  /** The distinct non-empty user principals seen from `ip` in the window. */
  ghost function UsersFromIp(signins: seq<SignIn>, ip: string, start: Time, end: Time): set<string>
  {
    set x | x in signins && IpRowIn(x, ip, start, end) && Present(x.upn) :: x.upn.value
  }

  /** The distinct non-empty app names seen from `ip` in the window. */
  ghost function AppsFromIp(signins: seq<SignIn>, ip: string, start: Time, end: Time): set<string>
  {
    set x | x in signins && IpRowIn(x, ip, start, end) && x.app != "" :: x.app
  }

  /** `ip_summary`. */
  function IpSummaryFor(signins: seq<SignIn>, ip: string, start: Time, end: Time): (r: IpSummary)
    ensures r.ip == ip
    ensures r.total == Count(signins, ForIp(ip, start, end))
    ensures r.failures + r.successes == r.total
    ensures r.failures == Count(Filter(signins, ForIp(ip, start, end)), Failed)
    ensures r.targetedUsersCount == |UsersFromIp(signins, ip, start, end)|
    ensures Strings.StrictlySorted(r.users) && Strings.StrictlySorted(r.apps)
         && Strings.StrictlySorted(r.countries)
    ensures |r.users| == if r.targetedUsersCount < ListCap then r.targetedUsersCount else ListCap
    ensures forall u :: u in r.users ==> u in UsersFromIp(signins, ip, start, end)
    ensures forall u, i :: u in UsersFromIp(signins, ip, start, end) && u !in r.users && 0 <= i < |r.users|
              ==> Strings.Less(r.users[i], u)
    ensures |r.apps| == if |AppsFromIp(signins, ip, start, end)| < ListCap
                         then |AppsFromIp(signins, ip, start, end)| else ListCap
    ensures forall a :: a in r.apps ==> a in AppsFromIp(signins, ip, start, end)
    ensures forall a, i :: a in AppsFromIp(signins, ip, start, end) && a !in r.apps && 0 <= i < |r.apps|
              ==> Strings.Less(r.apps[i], a)
    ensures forall c :: c in r.countries
              <==> exists x :: x in signins && IpRowIn(x, ip, start, end) && x.country == Some(c)
  {
    var rows := Filter(signins, ForIp(ip, start, end));
    CountComplement(rows, Failed, Succeeded);
    var users := Distinct(signins, ForIp(ip, start, end), UserOf);
    var apps := Distinct(signins, ForIp(ip, start, end), AppOf);
    DistinctUsers(signins, ip, start, end);
    DistinctApps(signins, ip, start, end);
    IpSummary(
      ip := ip,
      total := |rows|,
      failures := Count(rows, Failed),
      successes := Count(rows, Succeeded),
      targetedUsersCount := |users|,
      users := Capped(users, UsersFromIp(signins, ip, start, end)),
      countries := Distinct(signins, ForIp(ip, start, end), CountryOf),
      apps := Capped(apps, AppsFromIp(signins, ip, start, end)))
  }

  lemma DistinctUsers(signins: seq<SignIn>, ip: string, start: Time, end: Time)
    ensures var users := Distinct(signins, ForIp(ip, start, end), UserOf);
      && (forall u :: u in users <==> u in UsersFromIp(signins, ip, start, end))
      && |users| == |UsersFromIp(signins, ip, start, end)|
  {
    var users := Distinct(signins, ForIp(ip, start, end), UserOf);
    assert (set u | u in users) == UsersFromIp(signins, ip, start, end);
    Strings.StrictlySortedCardinality(users);
  }

  lemma DistinctApps(signins: seq<SignIn>, ip: string, start: Time, end: Time)
    ensures var apps := Distinct(signins, ForIp(ip, start, end), AppOf);
      && (forall a :: a in apps <==> a in AppsFromIp(signins, ip, start, end))
      && |apps| == |AppsFromIp(signins, ip, start, end)|
  {
    var apps := Distinct(signins, ForIp(ip, start, end), AppOf);
    assert (set a | a in apps) == AppsFromIp(signins, ip, start, end);
    Strings.StrictlySortedCardinality(apps);
  }

  /** The window test is inclusive at both ends and admits nothing else. */
  lemma InRangeInclusive(t: Time, start: Time, end: Time)
    ensures start <= end ==> InRange(start, start, end) && InRange(end, start, end)
    ensures t < start || t > end ==> !InRange(t, start, end)
    ensures start > end ==> !InRange(t, start, end)
  {
  }

  /** A row counts as legacy authentication exactly when its client app,
      with ASCII letters lower-cased, has "legacy" at some offset. */
  lemma LegacyAuthOccurrence(r: SignIn)
    ensures UsesLegacyAuth(r) <==> exists i :: Strings.OccursAt(Strings.Lower(r.clientApp), "legacy", i)
  {
    var lowered := Strings.Lower(r.clientApp);
    Strings.ContainsOccurrence(lowered, "legacy");
    if UsesLegacyAuth(r) {
      var i :| Strings.OccursAt(lowered, "legacy", i);
      assert Strings.OccursAt(Strings.Lower(r.clientApp), "legacy", i);
    }
  }

  /** The `ListCap` least entries of a strictly sorted list that holds
      exactly the values of `all`. */
  function Capped(values: seq<string>, ghost all: set<string>): (r: seq<string>)
    requires Strings.StrictlySorted(values)
    requires forall v :: v in values <==> v in all
    requires |values| == |all|
    ensures Strings.StrictlySorted(r)
    ensures |r| == if |all| < ListCap then |all| else ListCap
    ensures forall v :: v in r ==> v in all
    ensures forall v, i :: v in all && v !in r && 0 <= i < |r| ==> Strings.Less(r[i], v)
  {
    CappedPrefix(values, ListCap);
    Prefix(values, ListCap)
  }

  /** The first `n` entries of a strictly sorted list are its `n` least
      entries. */
  lemma CappedPrefix(s: seq<string>, n: nat)
    requires Strings.StrictlySorted(s)
    ensures Strings.StrictlySorted(Prefix(s, n))
    ensures forall u :: u in Prefix(s, n) ==> u in s
    ensures forall u, i :: u in s && u !in Prefix(s, n) && 0 <= i < |Prefix(s, n)|
              ==> Strings.Less(Prefix(s, n)[i], u)
  {
    var p := Prefix(s, n);
    assert p == s[..|p|];
    forall u, i | u in s && u !in p && 0 <= i < |p|
      ensures Strings.Less(p[i], u)
    {
      var k :| 0 <= k < |s| && s[k] == u;
      assert k >= |p|;
    }
  }

  /** A row of another user, or outside the window, leaves a user summary
      unchanged. */
  lemma UserSummaryIgnoresOtherRows(before: seq<SignIn>, e: SignIn, after: seq<SignIn>,
                                    upn: string, start: Time, end: Time)
    requires !UserRowIn(e, upn, start, end)
    ensures SigninSummaryForUser(before + [e] + after, upn, start, end)
         == SigninSummaryForUser(before + after, upn, start, end)
  {
    FilterSkip(before, e, after, ForUser(upn, start, end));
  }

  /** A row from another IP, or outside the window, leaves an IP summary
      unchanged. */
  lemma IpSummaryIgnoresOtherRows(before: seq<SignIn>, e: SignIn, after: seq<SignIn>,
                                  ip: string, start: Time, end: Time)
    requires !IpRowIn(e, ip, start, end)
    ensures IpSummaryFor(before + [e] + after, ip, start, end)
         == IpSummaryFor(before + after, ip, start, end)
  {
    FilterSkip(before, e, after, ForIp(ip, start, end));
  }

  /** Moving an in-window row of `ip` to another address takes it out of the
      summary of `ip`: its total drops by one, and so does its failure or its
      success count. */
  lemma IpSummaryRetarget(before: seq<SignIn>, e: SignIn, after: seq<SignIn>,
                          ip: string, other: string, start: Time, end: Time)
    requires IpRowIn(e, ip, start, end) && other != ip
    ensures var moved := IpSummaryFor(before + [e.(ip := Some(other))] + after, ip, start, end);
      var kept := IpSummaryFor(before + [e] + after, ip, start, end);
      && moved.total + 1 == kept.total
      && moved.failures + (if Failed(e) then 1 else 0) == kept.failures
      && moved.successes + (if Succeeded(e) then 1 else 0) == kept.successes
  {
    var p := ForIp(ip, start, end);
    var e' := e.(ip := Some(other));
    FilterSkip(before, e', after, p);
    CountWith(before, e, after, p);
    FilterConcat(before + [e], after, p);
    FilterConcat(before, [e], p);
    FilterConcat(before, after, p);
    assert Filter([e], p) == [e];
    var fb, fa := Filter(before, p), Filter(after, p);
    FilterConcat(fb + [e], fa, Failed);
    FilterConcat(fb, [e], Failed);
    FilterConcat(fb, fa, Failed);
    FilterConcat(fb + [e], fa, Succeeded);
    FilterConcat(fb, [e], Succeeded);
    FilterConcat(fb, fa, Succeeded);
  }
}

=== FILE: records.dfy ===
/** The records the pipeline reads: identity-provider sign-in rows and
    directory audit rows, already loaded and with their timestamps parsed.

    A timestamp is a whole number of seconds. The logs write every instant as
    `YYYY-MM-DDTHH:MM:SSZ`; for strings of that fixed shape the
    lexicographic order used as a sort key and the order of the parsed
    instants used in range tests coincide, so one integer stands for both. */
module Records {

  datatype Option<T> = None | Some(value: T)

  type Time = int

  /** A JSON value, for the nested parts of a row that are looked up by
      path rather than by a fixed field. */
  datatype Json =
    | JNull
    | JBool(b: bool)
    | JNum(n: int)
    | JStr(s: string)
    | JArr(items: seq<Json>)
    | JObj(fields: map<string, Json>)

  /** Python truthiness of a JSON value: `None`, `False`, `0`, `""`, `[]`
      and `{}` are false. */
  predicate Truthy(j: Json)
  {
    match j
    case JNull => false
    case JBool(b) => b
    case JNum(n) => n != 0
    case JStr(s) => s != ""
    case JArr(items) => |items| > 0
    case JObj(fields) => |fields| > 0
  }

  /** A sign-in row.
      - `upn`, `ip`: `UserPrincipalName`, `IPAddress`; `None` when absent, so
        an absent value never equals a queried string.
      - `app`, `clientApp`: `AppDisplayName`, `ClientAppUsed`; absent is
        `""`. A non-empty app name is collected into the summaries' app
        lists and an empty one is skipped; the client app is only
        lower-cased and searched.
      - `country`: `Location.countryOrRegion`, `None` when `Location` is
        absent or empty.
      - `errorCode`: `Status.errorCode`, `0` when absent. */
  datatype SignIn = SignIn(
    time: Time,
    upn: Option<string>,
    ip: Option<string>,
    app: string,
    country: Option<string>,
    errorCode: int,
    clientApp: string)

  /** Error code 0 is a successful sign-in; anything else is a failure. */
  predicate Succeeded(r: SignIn)
  {
    r.errorCode == 0
  }

  predicate Failed(r: SignIn)
  {
    r.errorCode != 0
  }

  /** Python truthiness of an optional string field. */
  predicate Present(o: Option<string>)
  {
    o.Some? && o.value != ""
  }

  /** An audit row. `initiatedBy` is the raw `InitiatedBy` value, looked
      up by path when the row is rendered. */
  datatype AuditEvent = AuditEvent(
    time: Time,
    operationName: Option<string>,
    result: Option<string>,
    initiatedBy: Option<Json>)
}

=== FILE: scoring.dfy ===
/** The deterministic confidence scorer of the triage summarizer: fixed
    weights for known detection ids and fixed boosts for account and IP
    evidence, summed, clamped to 0..100 and labelled. Each increment comes
    with one rationale entry; the entries are kept as structured reasons
    rather than as their rendered text. */
module Scoring {
  import opened Records
  import opened Seqs

  const HomeCountry: string := "CA"
  const MaxScore: int := 100
  const HighFrom: int := 80
  const MediumFrom: int := 50

  const FailureVolumeThreshold: int := 10
  const TargetedUsersThreshold: int := 5
  const AccountBoost: nat := 10
  const IpBoost: nat := 15

  /** Weight of each detection id the scorer knows. */
  const Weights: map<string, nat> := map[
    "DET-01" := 35,
    "DET-02" := 15,
    "DET-03" := 20,
    "DET-04" := 40,
    "DET-05" := 40,
    "DET-06" := 30,
    "DET-07" := 35]

  /** An account summary as the scorer reads it: every field may be
      missing. A missing count reads as 0 and missing countries as none. */
  datatype AccountEvidence = AccountEvidence(
    user: Option<string>,
    failure: Option<int>,
    legacyAuthCount: Option<int>,
    countries: Option<seq<string>>)

  datatype IpEvidence = IpEvidence(
    failures: Option<int>,
    successes: Option<int>,
    targetedUsersCount: Option<int>)

  datatype ScoreInput = ScoreInput(
    detections: seq<string>,
    accounts: seq<AccountEvidence>,
    ips: seq<IpEvidence>)

  /** One rationale entry, carrying the values its text reports. */
  datatype Reason =
    | DetectionPresent(id: string, weight: nat)
    | HighFailureVolume(user: Option<string>, failures: int)
    | LegacyAuthObserved(user: Option<string>)
    | NonHomeCountry(user: Option<string>, countries: seq<string>)
    | IpFailureSuccessPattern(failures: int, successes: int)
    | IpTargetedManyUsers(targeted: int)

  datatype Label = Low | Medium | High

  datatype Scored = Scored(confidenceScore: int, confidenceLabel: Label, rationale: seq<Reason>)

  /** What a rationale entry adds to the score. */
  function Points(r: Reason): int
  {
    match r
    case DetectionPresent(_, w) => w
    case HighFailureVolume(_, _) => AccountBoost
    case LegacyAuthObserved(_) => AccountBoost
    case NonHomeCountry(_, _) => AccountBoost
    case IpFailureSuccessPattern(_, _) => IpBoost
    case IpTargetedManyUsers(_) => IpBoost
  }

  /** Evaluation stage that produces a reason: detections, then accounts,
      then IPs. */
  function Stage(r: Reason): nat
  {
    match r
    case DetectionPresent(_, _) => 0
    case HighFailureVolume(_, _) => 1
    case LegacyAuthObserved(_) => 1
    case NonHomeCountry(_, _) => 1
    case IpFailureSuccessPattern(_, _) => 2
    case IpTargetedManyUsers(_) => 2
  }

  /** The reason a rationale entry stands for is one the scorer can emit:
      a known id with its weight, or a boost. */
  predicate WellFormed(r: Reason)
  {
    r.DetectionPresent? ==> r.id in Weights && r.weight == Weights[r.id]
  }

  function Total(rs: seq<Reason>): int
  {
    if |rs| == 0 then 0 else Points(rs[0]) + Total(rs[1..])
  }

  lemma {:induction false} TotalConcat(a: seq<Reason>, b: seq<Reason>)
    ensures Total(a + b) == Total(a) + Total(b)
  {
    if |a| == 0 {
      assert a + b == b;
    } else {
      assert (a + b)[0] == a[0];
      assert (a + b)[1..] == a[1..] + b;
      TotalConcat(a[1..], b);
    }
  }

  /** Every emitted reason adds a positive amount, so a list of them sums
      to at least its length and never below zero. */
  lemma {:induction false} TotalPositive(rs: seq<Reason>)
    requires forall i :: 0 <= i < |rs| ==> WellFormed(rs[i])
    ensures Total(rs) >= |rs|
  {
    if |rs| > 0 {
      assert Points(rs[0]) > 0 by {
        if rs[0].DetectionPresent? {
          assert rs[0].id in Weights;
        }
      }
      TotalPositive(rs[1..]);
    }
  }

  function OrZero(o: Option<int>): int
  {
    match o
    case None => 0
    case Some(n) => n
  }

  /** A country that is neither empty nor the home country. */
  predicate Foreign(c: string)
  {
    c != "" && c != HomeCountry
  }

  predicate AnyForeign(countries: Option<seq<string>>)
  {
    countries.Some? && exists i :: 0 <= i < |countries.value| && Foreign(countries.value[i])
  }

  /** The entry for one detection id: its weight if known, nothing if not. */
  function DetectionReason(id: string): (r: seq<Reason>)
    ensures |r| <= 1
    ensures |r| == 1 <==> id in Weights
    ensures forall i :: 0 <= i < |r| ==> r[i] == DetectionPresent(id, Weights[id])
  {
    if id in Weights then [DetectionPresent(id, Weights[id])] else []
  }

  function DetectionReasons(ids: seq<string>): seq<Reason>
  {
    FlatMap(ids, DetectionReason)
  }

  /** The reason alone when `cond` holds, nothing otherwise. */
  function Guarded(cond: bool, reason: Reason): seq<Reason>
  {
    if cond then [reason] else []
  }

  /** The boosts for one account: high failure volume, legacy
      authentication, a non-home country, each independently and in that
      order. */
  function AccountReasons(a: AccountEvidence): (r: seq<Reason>)
    ensures forall i :: 0 <= i < |r| ==> Stage(r[i]) == 1 && Points(r[i]) == AccountBoost
    ensures |r| <= 3
  {
    var failures := OrZero(a.failure);
    var countries := if a.countries.Some? then a.countries.value else [];
    Guarded(failures >= FailureVolumeThreshold, HighFailureVolume(a.user, failures))
    + Guarded(OrZero(a.legacyAuthCount) > 0, LegacyAuthObserved(a.user))
    + Guarded(AnyForeign(a.countries), NonHomeCountry(a.user, countries))
  }

  /** The boosts for one IP: a failures-then-success pattern and many
      targeted users, each independently and in that order. */
  function IpReasons(ip: IpEvidence): (r: seq<Reason>)
    ensures forall i :: 0 <= i < |r| ==> Stage(r[i]) == 2 && Points(r[i]) == IpBoost
    ensures |r| <= 2
  {
    var failures := OrZero(ip.failures);
    var successes := OrZero(ip.successes);
    var targeted := OrZero(ip.targetedUsersCount);
    Guarded(failures >= FailureVolumeThreshold && successes >= 1, IpFailureSuccessPattern(failures, successes))
    + Guarded(targeted >= TargetedUsersThreshold, IpTargetedManyUsers(targeted))
  }

  /** Each account boost is drawn exactly when its condition holds. */
  lemma AccountBoostsIff(a: AccountEvidence)
    ensures var r := AccountReasons(a);
      && (HighFailureVolume(a.user, OrZero(a.failure)) in r <==> OrZero(a.failure) >= FailureVolumeThreshold)
      && (LegacyAuthObserved(a.user) in r <==> OrZero(a.legacyAuthCount) > 0)
      && ((exists cs :: NonHomeCountry(a.user, cs) in r) <==> AnyForeign(a.countries))
  {
  }

  /** Each IP boost is drawn exactly when its condition holds. */
  lemma IpBoostsIff(ip: IpEvidence)
    ensures var r := IpReasons(ip);
      && ((exists f, s :: IpFailureSuccessPattern(f, s) in r)
          <==> OrZero(ip.failures) >= FailureVolumeThreshold && OrZero(ip.successes) >= 1)
      && ((exists t :: IpTargetedManyUsers(t) in r) <==> OrZero(ip.targetedUsersCount) >= TargetedUsersThreshold)
  {
  }

  /** The rationale in evaluation order. */
  function Reasons(input: ScoreInput): seq<Reason>
  {
    DetectionReasons(input.detections) + FlatMap(input.accounts, AccountReasons) + FlatMap(input.ips, IpReasons)
  }

  /** `max(0, min(n, 100))`. */
  function Clamp(n: int): (c: int)
    ensures 0 <= c <= MaxScore
    ensures 0 <= n <= MaxScore ==> c == n
    ensures n > MaxScore ==> c == MaxScore
    ensures n < 0 ==> c == 0
  {
    if n < 0 then 0 else if n > MaxScore then MaxScore else n
  }

  /** The three tiers partition the scores at 80 and 50. */
  function LabelOf(score: int): (l: Label)
    ensures l == High <==> score >= HighFrom
    ensures l == Medium <==> MediumFrom <= score < HighFrom
    ensures l == Low <==> score < MediumFrom
  {
    if score >= HighFrom then High else if score >= MediumFrom then Medium else Low
  }

  /** `score_bundle` stated as a function of the reasons it collects. */
  function Score(input: ScoreInput): (s: Scored)
    ensures 0 <= s.confidenceScore <= MaxScore
    ensures s.confidenceScore == if Total(s.rationale) < MaxScore then Total(s.rationale) else MaxScore
    ensures Total(s.rationale) >= |s.rationale|
    ensures forall i :: 0 <= i < |s.rationale| ==> Points(s.rationale[i]) > 0
    ensures forall i, j :: 0 <= i < j < |s.rationale| ==> Stage(s.rationale[i]) <= Stage(s.rationale[j])
    ensures s.confidenceLabel == LabelOf(s.confidenceScore)
    ensures s.rationale == DetectionReasons(input.detections) + FlatMap(input.accounts, AccountReasons)
                           + FlatMap(input.ips, IpReasons)
  {
    var rs := Reasons(input);
    ReasonsShape(input);
    TotalPositive(rs);
    Scored(Clamp(Total(rs)), LabelOf(Clamp(Total(rs))), rs)
  }

  /** Every reason of a rationale is well formed, and the stages never go
      back. */
  lemma ReasonsShape(input: ScoreInput)
    ensures var rs := Reasons(input);
      && (forall i :: 0 <= i < |rs| ==> WellFormed(rs[i]) && Points(rs[i]) > 0)
      && (forall i, j :: 0 <= i < j < |rs| ==> Stage(rs[i]) <= Stage(rs[j]))
  {
    var d := DetectionReasons(input.detections);
    var a := FlatMap(input.accounts, AccountReasons);
    var p := FlatMap(input.ips, IpReasons);
    DetectionStage(input.detections);
    AccountStage(input.accounts);
    IpStage(input.ips);
    StagesConcat(d, a, 0, 1);
    StagesConcat(d + a, p, 1, 2);
  }

  /** Appending entries of a later stage keeps the stages in order. */
  lemma StagesConcat(x: seq<Reason>, y: seq<Reason>, kx: nat, ky: nat)
    requires kx <= ky
    requires forall i :: 0 <= i < |x| ==> Stage(x[i]) <= kx && WellFormed(x[i]) && Points(x[i]) > 0
    requires forall i, j :: 0 <= i < j < |x| ==> Stage(x[i]) <= Stage(x[j])
    requires forall i :: 0 <= i < |y| ==> Stage(y[i]) == ky && WellFormed(y[i]) && Points(y[i]) > 0
    ensures forall i :: 0 <= i < |x + y| ==>
              Stage((x + y)[i]) <= ky && WellFormed((x + y)[i]) && Points((x + y)[i]) > 0
    ensures forall i, j :: 0 <= i < j < |x + y| ==> Stage((x + y)[i]) <= Stage((x + y)[j])
  {
  }

  lemma DetectionStage(ids: seq<string>)
    ensures forall i :: 0 <= i < |DetectionReasons(ids)| ==>
              Stage(DetectionReasons(ids)[i]) == 0 && WellFormed(DetectionReasons(ids)[i]) && Points(DetectionReasons(ids)[i]) > 0
  {
    var d := DetectionReasons(ids);
    FlatMapMembers(ids, DetectionReason);
    forall i | 0 <= i < |d|
      ensures Stage(d[i]) == 0 && WellFormed(d[i]) && Points(d[i]) > 0
    {
      assert d[i] in d;
      var k :| 0 <= k < |ids| && d[i] in DetectionReason(ids[k]);
    }
  }

  lemma AccountStage(accounts: seq<AccountEvidence>)
    ensures forall i :: 0 <= i < |FlatMap(accounts, AccountReasons)| ==>
              Stage(FlatMap(accounts, AccountReasons)[i]) == 1 && WellFormed(FlatMap(accounts, AccountReasons)[i]) && Points(FlatMap(accounts, AccountReasons)[i]) > 0
  {
    var a := FlatMap(accounts, AccountReasons);
    FlatMapMembers(accounts, AccountReasons);
    forall i | 0 <= i < |a|
      ensures Stage(a[i]) == 1 && WellFormed(a[i]) && Points(a[i]) > 0
    {
      assert a[i] in a;
      var k :| 0 <= k < |accounts| && a[i] in AccountReasons(accounts[k]);
    }
  }

  lemma IpStage(ips: seq<IpEvidence>)
    ensures forall i :: 0 <= i < |FlatMap(ips, IpReasons)| ==>
              Stage(FlatMap(ips, IpReasons)[i]) == 2 && WellFormed(FlatMap(ips, IpReasons)[i]) && Points(FlatMap(ips, IpReasons)[i]) > 0
  {
    var p := FlatMap(ips, IpReasons);
    FlatMapMembers(ips, IpReasons);
    forall i | 0 <= i < |p|
      ensures Stage(p[i]) == 2 && WellFormed(p[i]) && Points(p[i]) > 0
    {
      assert p[i] in p;
      var k :| 0 <= k < |ips| && p[i] in IpReasons(ips[k]);
    }
  }

  /** `score_bundle` as the source computes it: a running score and a
      growing rationale over detections, accounts and IPs, then the clamp
      and the label. */
  method ScoreBundle(input: ScoreInput) returns (result: Scored)
    ensures result == Score(input)
  {
    var score, rationale := CollectReasons(input);
    score := if score < 0 then 0 else if score > MaxScore then MaxScore else score;
    var tier := if score >= HighFrom then High else if score >= MediumFrom then Medium else Low;
    result := Scored(score, tier, rationale);
  }

  /** The three loops before the clamp: the unclamped score is the sum of
      the rationale's entries. */
  method CollectReasons(input: ScoreInput) returns (score: int, rationale: seq<Reason>)
    ensures rationale == Reasons(input)
    ensures score == Total(rationale)
  {
    var none: seq<Reason> := [];
    assert Total(none) == 0;
    var s1, r1 := AddDetections(input.detections, 0, none);
    assert r1 == DetectionReasons(input.detections);
    var s2, r2 := AddAccountBoosts(input.accounts, s1, r1);
    score, rationale := AddIpBoosts(input.ips, s2, r2);
    assert rationale == DetectionReasons(input.detections) + FlatMap(input.accounts, AccountReasons)
                        + FlatMap(input.ips, IpReasons);
  }

  /** The loop over detection ids: each known id adds its weight and one
      entry. */
  method AddDetections(ids: seq<string>, score0: int, rationale0: seq<Reason>)
    returns (score: int, rationale: seq<Reason>)
    requires score0 == Total(rationale0)
    ensures rationale == rationale0 + DetectionReasons(ids)
    ensures score == Total(rationale)
  {
    score, rationale := score0, rationale0;
    for k := 0 to |ids|
      invariant rationale == rationale0 + DetectionReasons(ids[..k])
      invariant score == Total(rationale)
    {
      var d := ids[k];
      FlatMapStepAfter(rationale0, ids, k, DetectionReason);
      if d in Weights {
        TotalConcat(rationale, [DetectionPresent(d, Weights[d])]);
        score := score + Weights[d];
        rationale := rationale + [DetectionPresent(d, Weights[d])];
      }
    }
    assert ids[..|ids|] == ids;
  }

  method AddAccountBoosts(accounts: seq<AccountEvidence>, score0: int, rationale0: seq<Reason>)
    returns (score: int, rationale: seq<Reason>)
    requires score0 == Total(rationale0)
    ensures rationale == rationale0 + FlatMap(accounts, AccountReasons)
    ensures score == Total(rationale)
  {
    score, rationale := score0, rationale0;
    for k := 0 to |accounts|
      invariant rationale == rationale0 + FlatMap(accounts[..k], AccountReasons)
      invariant score == Total(rationale)
    {
      var a := accounts[k];
      FlatMapStepAfter(rationale0, accounts, k, AccountReasons);
      score, rationale := AddAccountBoost(a, score, rationale);
    }
    assert accounts[..|accounts|] == accounts;
  }

  /** The body of the account loop: three independent boosts. */
  method AddAccountBoost(a: AccountEvidence, score0: int, rationale0: seq<Reason>)
    returns (score: int, rationale: seq<Reason>)
    requires score0 == Total(rationale0)
    ensures rationale == rationale0 + AccountReasons(a)
    ensures score == Total(rationale)
  {
    var failures := OrZero(a.failure);
    var legacy := OrZero(a.legacyAuthCount);
    var countries := if a.countries.Some? then a.countries.value else [];
    var foreign := |countries| >= 1 && AnyForeign(Some(countries));
    var s1, r1 := AddBoost(failures >= FailureVolumeThreshold, HighFailureVolume(a.user, failures), score0, rationale0);
    var s2, r2 := AddBoost(legacy > 0, LegacyAuthObserved(a.user), s1, r1);
    score, rationale := AddBoost(foreign, NonHomeCountry(a.user, countries), s2, r2);
    var g1 := Guarded(failures >= FailureVolumeThreshold, HighFailureVolume(a.user, failures));
    var g2 := Guarded(legacy > 0, LegacyAuthObserved(a.user));
    var g3 := Guarded(foreign, NonHomeCountry(a.user, countries));
    AppendThree(rationale0, g1, g2, g3);
    assert foreign == AnyForeign(a.countries);
    assert AccountReasons(a) == g1 + g2 + g3;
  }

  /** One guarded boost: when `cond` holds, the reason joins the rationale
      and its points join the score. */
  method AddBoost(cond: bool, reason: Reason, score0: int, rationale0: seq<Reason>)
    returns (score: int, rationale: seq<Reason>)
    requires score0 == Total(rationale0)
    ensures rationale == rationale0 + Guarded(cond, reason)
    ensures score == Total(rationale)
  {
    score, rationale := score0, rationale0;
    if cond {
      TotalConcat(rationale, [reason]);
      score := score + Points(reason);
      rationale := rationale + [reason];
    }
  }

  method AddIpBoosts(ips: seq<IpEvidence>, score0: int, rationale0: seq<Reason>)
    returns (score: int, rationale: seq<Reason>)
    requires score0 == Total(rationale0)
    ensures rationale == rationale0 + FlatMap(ips, IpReasons)
    ensures score == Total(rationale)
  {
    score, rationale := score0, rationale0;
    for k := 0 to |ips|
      invariant rationale == rationale0 + FlatMap(ips[..k], IpReasons)
      invariant score == Total(rationale)
    {
      var ip := ips[k];
      FlatMapStepAfter(rationale0, ips, k, IpReasons);
      score, rationale := AddIpBoost(ip, score, rationale);
    }
    assert ips[..|ips|] == ips;
  }

  /** The body of the IP loop: two independent boosts. */
  method AddIpBoost(ip: IpEvidence, score0: int, rationale0: seq<Reason>)
    returns (score: int, rationale: seq<Reason>)
    requires score0 == Total(rationale0)
    ensures rationale == rationale0 + IpReasons(ip)
    ensures score == Total(rationale)
  {
    var failures := OrZero(ip.failures);
    var successes := OrZero(ip.successes);
    var targeted := OrZero(ip.targetedUsersCount);
    var s1, r1 := AddBoost(failures >= FailureVolumeThreshold && successes >= 1,
                           IpFailureSuccessPattern(failures, successes), score0, rationale0);
    score, rationale := AddBoost(targeted >= TargetedUsersThreshold, IpTargetedManyUsers(targeted), s1, r1);
    assert rationale == rationale0 + IpReasons(ip);
  }

  /** Detection entries add up list by list: each occurrence of a known id
      contributes its own entry and weight, duplicates included. */
  lemma DetectionsAdditive(a: seq<string>, b: seq<string>)
    ensures DetectionReasons(a + b) == DetectionReasons(a) + DetectionReasons(b)
    ensures Total(DetectionReasons(a + b)) == Total(DetectionReasons(a)) + Total(DetectionReasons(b))
  {
    FlatMapConcat(a, b, DetectionReason);
    TotalConcat(DetectionReasons(a), DetectionReasons(b));
  }

  /** An unknown id adds no entry; a known one adds one entry worth its
      weight, wherever it occurs in the list. */
  lemma DetectionOccurrence(before: seq<string>, id: string, after: seq<string>)
    ensures var r := DetectionReasons(before + [id] + after);
      && |r| == |DetectionReasons(before + after)| + (if id in Weights then 1 else 0)
      && Total(r) == Total(DetectionReasons(before + after)) + (if id in Weights then Weights[id] else 0)
  {
    DetectionsAdditive(before + [id], after);
    DetectionsAdditive(before, [id]);
    DetectionsAdditive(before, after);
    SingleDetection(id);
  }

  /** A one-id list yields that id's entry, worth its weight if known. */
  lemma SingleDetection(id: string)
    ensures DetectionReasons([id]) == DetectionReason(id)
    ensures Total(DetectionReason(id)) == if id in Weights then Weights[id] else 0
  {
    FlatMapSnoc([], id, DetectionReason);
    assert [] + [id] == [id];
    if id in Weights {
      assert DetectionReason(id)[1..] == [];
    }
  }

  /** Entries all worth `p` sum to `p` times their number. */
  lemma {:induction false} TotalUniform(rs: seq<Reason>, p: int)
    requires forall i :: 0 <= i < |rs| ==> Points(rs[i]) == p
    ensures Total(rs) == p * |rs|
  {
    if |rs| > 0 {
      TotalUniform(rs[1..], p);
    }
  }

  /** One account contributes 0, 10, 20 or 30 points, ten per entry. */
  lemma AccountContribution(a: AccountEvidence)
    ensures var r := AccountReasons(a);
      Total(r) == AccountBoost * |r| && Total(r) in {0, 10, 20, 30}
  {
    TotalUniform(AccountReasons(a), AccountBoost);
  }

  /** One IP contributes 0, 15 or 30 points. */
  lemma IpContribution(ip: IpEvidence)
    ensures var r := IpReasons(ip);
      Total(r) == IpBoost * |r| && Total(r) in {0, 15, 30}
  {
    TotalUniform(IpReasons(ip), IpBoost);
  }

  /** Accounts and IPs whose counts and countries are all missing add
      nothing: the score is then that of the detections alone. */
  lemma AbsentEvidenceScoresNothing(input: ScoreInput)
    requires forall i :: 0 <= i < |input.accounts| ==>
               input.accounts[i].failure.None? && input.accounts[i].legacyAuthCount.None?
               && input.accounts[i].countries.None?
    requires forall i :: 0 <= i < |input.ips| ==>
               input.ips[i].failures.None? && input.ips[i].successes.None?
               && input.ips[i].targetedUsersCount.None?
    ensures Score(input).rationale == DetectionReasons(input.detections)
  {
    FlatMapEmpty(input.accounts, AccountReasons);
    FlatMapEmpty(input.ips, IpReasons);
  }

  /** Reporting one more detection never lowers the score. */
  lemma MoreDetectionsNeverLower(input: ScoreInput, id: string)
    ensures Score(input.(detections := input.detections + [id])).confidenceScore
         >= Score(input).confidenceScore
  {
    var more := input.(detections := input.detections + [id]);
    var d := DetectionReasons(input.detections);
    var d' := DetectionReasons(more.detections);
    var accounts := FlatMap(input.accounts, AccountReasons);
    var ips := FlatMap(input.ips, IpReasons);
    DetectionsAdditive(input.detections, [id]);
    SingleDetection(id);
    WeightsPositive();
    TotalConcat(d, accounts);
    TotalConcat(d + accounts, ips);
    TotalConcat(d', accounts);
    TotalConcat(d' + accounts, ips);
    ScoreMonotone(input, more);
  }

  /** Every known detection weighs something. */
  lemma WeightsPositive()
    ensures forall k :: k in Weights ==> Weights[k] > 0
  {
  }

  /** A larger sum of entries never scores lower. */
  lemma ScoreMonotone(x: ScoreInput, y: ScoreInput)
    requires Total(Reasons(x)) <= Total(Reasons(y))
    ensures Score(x).confidenceScore <= Score(y).confidenceScore
  {
  }

  /** A single account with ten failures, no legacy authentication and
      only the home country scores 10, labelled Low. */
  lemma HomeAccountExample(u: string)
    ensures var s := Score(ScoreInput([], [AccountEvidence(Some(u), Some(10), Some(0), Some([HomeCountry]))], []));
      && s.confidenceScore == 10
      && s.confidenceLabel == Low
      && s.rationale == [HighFailureVolume(Some(u), 10)]
  {
    var a := AccountEvidence(Some(u), Some(10), Some(0), Some([HomeCountry]));
    assert !AnyForeign(a.countries);
    assert AccountReasons(a) == [HighFailureVolume(Some(u), 10)];
    FlatMapSnoc([], a, AccountReasons);
    assert [] + [a] == [a];
    assert Reasons(ScoreInput([], [a], [])) == [HighFailureVolume(Some(u), 10)];
    assert [HighFailureVolume(Some(u), 10)][1..] == [];
    assert Total([HighFailureVolume(Some(u), 10)]) == 10;
  }
}

=== FILE: seqs.dfy ===
/** Sequence operations the pipeline is built from: filtering, counting,
    Python-style prefix slicing and a stable sort by an integer key.

    Python's `list.sort(key=k)` is stable, and so is `list.sort(key=k,
    reverse=True)`: records with equal keys keep their input order in both
    directions. A descending stable sort is therefore the ascending stable
    sort by the negated key, and one insertion sort serves both. */
module Seqs {

  /** The elements of `s` satisfying `p`, in input order
      (`[x for x in s if p(x)]`). */
  function Filter<T>(s: seq<T>, p: T -> bool): (r: seq<T>)
    ensures |r| <= |s|
    ensures forall i :: 0 <= i < |r| ==> r[i] in s && p(r[i])
    ensures forall i :: 0 <= i < |s| && p(s[i]) ==> s[i] in r
  {
    if |s| == 0 then []
    else (if p(s[0]) then [s[0]] else []) + Filter(s[1..], p)
  }

  lemma FilterMembers<T>(s: seq<T>, p: T -> bool)
    ensures forall x :: x in Filter(s, p) <==> x in s && p(x)
  {
    var r := Filter(s, p);
    forall x
      ensures x in r <==> x in s && p(x)
    {
      if x in r {
        var i :| 0 <= i < |r| && r[i] == x;
      }
      if x in s && p(x) {
        var i :| 0 <= i < |s| && s[i] == x;
      }
    }
  }

  /** Number of elements satisfying `p` (`sum(1 for x in s if p(x))`). */
  function Count<T>(s: seq<T>, p: T -> bool): nat
  {
    |Filter(s, p)|
  }

  /** Filtering distributes over concatenation. */
  lemma {:induction false} FilterConcat<T>(a: seq<T>, b: seq<T>, p: T -> bool)
    ensures Filter(a + b, p) == Filter(a, p) + Filter(b, p)
  {
    if |a| == 0 {
      assert a + b == b;
    } else {
      var h := if p(a[0]) then [a[0]] else [];
      assert (a + b)[0] == a[0];
      assert (a + b)[1..] == a[1..] + b;
      FilterConcat(a[1..], b, p);
      assert Filter(a + b, p) == h + (Filter(a[1..], p) + Filter(b, p));
      assert Filter(a, p) == h + Filter(a[1..], p);
    }
  }

  /** An element the predicate rejects can be dropped before filtering. */
  lemma FilterSkip<T>(before: seq<T>, e: T, after: seq<T>, p: T -> bool)
    requires !p(e)
    ensures Filter(before + [e] + after, p) == Filter(before + after, p)
  {
    FilterConcat(before + [e], after, p);
    FilterConcat(before, [e], p);
    FilterConcat(before, after, p);
    assert [e][1..] == [];
    assert Filter([e], p) == [];
    assert Filter(before, p) + [] == Filter(before, p);
  }

  /** One element adds one to the count exactly when the predicate accepts it. */
  lemma CountWith<T>(before: seq<T>, e: T, after: seq<T>, p: T -> bool)
    ensures Count(before + [e] + after, p) == Count(before + after, p) + if p(e) then 1 else 0
  {
    FilterConcat(before + [e], after, p);
    FilterConcat(before, [e], p);
    FilterConcat(before, after, p);
    assert [e][1..] == [];
  }

  /** Two complementary predicates split a sequence: their counts add up to
      its length. */
  lemma {:induction false} CountComplement<T>(s: seq<T>, p: T -> bool, q: T -> bool)
    requires forall x :: q(x) == !p(x)
    ensures Count(s, p) + Count(s, q) == |s|
  {
    if |s| > 0 {
      CountComplement(s[1..], p, q);
    }
  }

  /** Filtering twice with `p` then `q` keeps what filtering once with
      their conjunction `pq` keeps. */
  lemma {:induction false} FilterFilter<T>(s: seq<T>, p: T -> bool, q: T -> bool, pq: T -> bool)
    requires forall x :: pq(x) == (p(x) && q(x))
    ensures Filter(Filter(s, p), q) == Filter(s, pq)
  {
    if |s| > 0 {
      FilterFilter(s[1..], p, q, pq);
      if p(s[0]) {
        assert Filter(s, p) == [s[0]] + Filter(s[1..], p);
        assert Filter(s, p)[1..] == Filter(s[1..], p);
      } else {
        assert Filter(s, p) == Filter(s[1..], p);
      }
    }
  }

  /** Filtering with a predicate that every element meets changes nothing. */
  lemma {:induction false} FilterAll<T>(s: seq<T>, p: T -> bool)
    requires forall i :: 0 <= i < |s| ==> p(s[i])
    ensures Filter(s, p) == s
  {
    if |s| > 0 {
      FilterAll(s[1..], p);
    }
  }

  /** Filtering with a predicate that no element meets leaves nothing. */
  lemma {:induction false} FilterNone<T>(s: seq<T>, p: T -> bool)
    requires forall i :: 0 <= i < |s| ==> !p(s[i])
    ensures Filter(s, p) == []
  {
    if |s| > 0 {
      FilterNone(s[1..], p);
    }
  }

  /** Python's `s[:n]` for any integer `n`: a negative `n` drops `-n`
      elements from the end. */
  function Prefix<T>(s: seq<T>, n: int): (r: seq<T>)
    ensures r <= s
    ensures 0 <= n ==> |r| == if n < |s| then n else |s|
    ensures n < 0 ==> |r| == if |s| + n < 0 then 0 else |s| + n
  {
    if n >= |s| then s
    else if n >= 0 then s[..n]
    else if |s| + n >= 0 then s[..|s| + n]
    else []
  }

  ghost predicate SortedBy<T>(s: seq<T>, key: T -> int)
  {
    forall i, j :: 0 <= i < j < |s| ==> key(s[i]) <= key(s[j])
  }

  /** Inserts `x` before the first element whose key is not smaller, so
      that `x` precedes the elements with an equal key. */
  function Insert<T>(x: T, s: seq<T>, key: T -> int): (r: seq<T>)
    requires SortedBy(s, key)
    ensures SortedBy(r, key)
    ensures multiset(r) == multiset(s) + multiset{x}
    ensures |r| == |s| + 1
  {
    if |s| == 0 then [x]
    else if key(x) <= key(s[0]) then [x] + s
    else
      var rest := Insert(x, s[1..], key);
      InsertTailBound(x, s, rest, key);
      ConsSorted(s[0], rest, key);
      assert s == [s[0]] + s[1..];
      [s[0]] + rest
  }

  /** Inserting into the tail keeps every key at or above the head's. */
  lemma InsertTailBound<T>(x: T, s: seq<T>, rest: seq<T>, key: T -> int)
    requires SortedBy(s, key) && |s| > 0 && key(s[0]) < key(x)
    requires multiset(rest) == multiset(s[1..]) + multiset{x}
    ensures forall j :: 0 <= j < |rest| ==> key(s[0]) <= key(rest[j])
  {
    forall j | 0 <= j < |rest|
      ensures key(s[0]) <= key(rest[j])
    {
      assert rest[j] in multiset(rest);
      if rest[j] != x {
        assert rest[j] in multiset(s[1..]);
        var k :| 0 <= k < |s[1..]| && s[1..][k] == rest[j];
        assert s[k + 1] == rest[j];
      }
    }
  }

  /** A sorted sequence stays sorted behind a head no larger than any of its
      keys. */
  lemma ConsSorted<T>(y: T, t: seq<T>, key: T -> int)
    requires SortedBy(t, key)
    requires forall j :: 0 <= j < |t| ==> key(y) <= key(t[j])
    ensures SortedBy([y] + t, key)
  {
    var r := [y] + t;
    forall i, j | 0 <= i < j < |r|
      ensures key(r[i]) <= key(r[j])
    {
      if i > 0 {
        assert r[i] == t[i - 1] && r[j] == t[j - 1];
      } else {
        assert r[j] == t[j - 1];
      }
    }
  }

  /** Stable insertion sort by `key` (Python's `sorted(s, key=key)`). */
  function SortBy<T>(s: seq<T>, key: T -> int): (r: seq<T>)
    ensures SortedBy(r, key)
    ensures multiset(r) == multiset(s)
    ensures |r| == |s|
  {
    if |s| == 0 then []
    else
      assert s == [s[0]] + s[1..];
      Insert(s[0], SortBy(s[1..], key), key)
  }

  /** Index of the first element with the least key: an independent
      reference for the head of a stable sort. */
  function FirstMinIndex<T>(s: seq<T>, key: T -> int): (k: nat)
    requires |s| > 0
    ensures k < |s|
    ensures forall j :: 0 <= j < |s| ==> key(s[k]) <= key(s[j])
    ensures forall j :: 0 <= j < k ==> key(s[k]) < key(s[j])
  {
    if |s| == 1 then 0
    else
      var k' := FirstMinIndex(s[1..], key);
      if key(s[0]) <= key(s[1 + k']) then 0 else 1 + k'
  }

  lemma InsertBeforeLarger<T>(x: T, s: seq<T>, key: T -> int)
    requires SortedBy(s, key)
    requires |s| == 0 || key(x) <= key(s[0])
    ensures Insert(x, s, key) == [x] + s
  {
  }

  lemma InsertAfterSmaller<T>(x: T, y: T, t: seq<T>, key: T -> int)
    requires SortedBy([y] + t, key)
    requires key(y) < key(x)
    ensures SortedBy(t, key)
    ensures Insert(x, [y] + t, key) == [y] + Insert(x, t, key)
  {
    assert ([y] + t)[0] == y;
    assert ([y] + t)[1..] == t;
  }

  lemma FilterCons<T>(y: T, t: seq<T>, p: T -> bool)
    ensures Filter([y] + t, p) == (if p(y) then [y] else []) + Filter(t, p)
  {
    assert ([y] + t)[0] == y;
    assert ([y] + t)[1..] == t;
  }

  /** Filtering a sorted sequence leaves it sorted. */
  lemma {:induction false} FilterSorted<T>(s: seq<T>, key: T -> int, p: T -> bool)
    requires SortedBy(s, key)
    ensures SortedBy(Filter(s, p), key)
  {
    if |s| > 0 {
      var t := s[1..];
      assert s == [s[0]] + t;
      assert SortedBy(t, key);
      FilterSorted(t, key, p);
      var f1 := Filter(t, p);
      FilterCons(s[0], t, p);
      if p(s[0]) {
        var f := [s[0]] + f1;
        forall j | 0 <= j < |f1|
          ensures key(s[0]) <= key(f1[j])
        {
          HeadBound(s, f1[j], key);
        }
        ConsSorted(s[0], f1, key);
      } else {
        assert [] + f1 == f1;
      }
    }
  }

  /** In a sorted sequence the head has the least key. */
  lemma HeadBound<T>(s: seq<T>, y: T, key: T -> int)
    requires SortedBy(s, key) && |s| > 0 && y in s
    ensures key(s[0]) <= key(y)
  {
    var k :| 0 <= k < |s| && s[k] == y;
  }

  /** Filtering commutes with insertion into a sorted sequence. */
  lemma {:induction false} FilterInsert<T>(x: T, s: seq<T>, key: T -> int, p: T -> bool)
    requires SortedBy(s, key)
    ensures SortedBy(Filter(s, p), key)
    ensures Filter(Insert(x, s, key), p)
         == if p(x) then Insert(x, Filter(s, p), key) else Filter(s, p)
    decreases |s|, 1
  {
    FilterSorted(s, key, p);
    if |s| == 0 {
    } else if key(x) <= key(s[0]) {
      FilterInsertFront(x, s, key, p);
    } else {
      FilterInsertLater(x, s, key, p);
    }
  }

  lemma FilterInsertFront<T>(x: T, s: seq<T>, key: T -> int, p: T -> bool)
    requires SortedBy(s, key) && SortedBy(Filter(s, p), key)
    requires |s| > 0 && key(x) <= key(s[0])
    ensures Filter(Insert(x, s, key), p)
         == if p(x) then Insert(x, Filter(s, p), key) else Filter(s, p)
  {
    var fs := Filter(s, p);
    InsertBeforeLarger(x, s, key);
    FilterCons(x, s, p);
    if p(x) {
      if |fs| > 0 {
        HeadBound(s, fs[0], key);
      }
      InsertBeforeLarger(x, fs, key);
    } else {
      assert [] + fs == fs;
    }
  }

  lemma {:induction false} FilterInsertLater<T>(x: T, s: seq<T>, key: T -> int, p: T -> bool)
    requires SortedBy(s, key) && SortedBy(Filter(s, p), key)
    requires |s| > 0 && key(x) > key(s[0])
    ensures Filter(Insert(x, s, key), p)
         == if p(x) then Insert(x, Filter(s, p), key) else Filter(s, p)
    decreases |s|, 0
  {
    var t := s[1..];
    assert s == [s[0]] + t;
    InsertAfterSmaller(x, s[0], t, key);
    FilterInsert(x, t, key, p);
    var rest := Insert(x, t, key);
    var f1 := Filter(t, p);
    FilterCons(s[0], rest, p);
    FilterCons(s[0], t, p);
    if p(s[0]) {
      var fs := [s[0]] + f1;
      assert Filter(s, p) == fs;
      if p(x) {
        InsertAfterSmaller(x, s[0], f1, key);
      }
    } else {
      assert [] + f1 == f1;
      assert [] + Filter(rest, p) == Filter(rest, p);
    }
  }

  /** The stable sort and filtering commute: the sort never reorders two
      elements, whatever subsequence one looks at. */
  lemma {:induction false} FilterSortBy<T>(s: seq<T>, key: T -> int, p: T -> bool)
    ensures Filter(SortBy(s, key), p) == SortBy(Filter(s, p), key)
  {
    if |s| > 0 {
      var sorted := SortBy(s[1..], key);
      assert SortBy(s, key) == Insert(s[0], sorted, key);
      FilterSortBy(s[1..], key, p);
      FilterInsert(s[0], sorted, key, p);
      FilterCons(s[0], s[1..], p);
      assert s == [s[0]] + s[1..];
      var fs := Filter(s, p);
      if p(s[0]) {
        assert fs[0] == s[0] && fs[1..] == Filter(s[1..], p);
        assert SortBy(fs, key) == Insert(s[0], SortBy(Filter(s[1..], p), key), key);
      } else {
        assert fs == Filter(s[1..], p);
      }
    }
  }

  /** Counting is invariant under the sort. */
  lemma CountSortBy<T>(s: seq<T>, key: T -> int, p: T -> bool)
    ensures Count(SortBy(s, key), p) == Count(s, p)
  {
    FilterSortBy(s, key, p);
  }

  /** The head of the stable sort is the first element with the least key. */
  lemma {:induction false} SortByHead<T>(s: seq<T>, key: T -> int)
    requires |s| > 0
    ensures SortBy(s, key)[0] == s[FirstMinIndex(s, key)]
  {
    if |s| > 1 {
      var sorted := SortBy(s[1..], key);
      SortByHead(s[1..], key);
      assert sorted[0] == s[1 + FirstMinIndex(s[1..], key)];
    }
  }

  /** The ends of a stable sort hold the least and the greatest key, and
      both are elements of the input. */
  lemma SortByEnds<T>(s: seq<T>, key: T -> int)
    requires |s| > 0
    ensures SortBy(s, key)[0] in s && SortBy(s, key)[|s| - 1] in s
    ensures forall i :: 0 <= i < |s| ==>
      key(SortBy(s, key)[0]) <= key(s[i]) <= key(SortBy(s, key)[|s| - 1])
  {
    var r := SortBy(s, key);
    assert r[0] in multiset(s) && r[|s| - 1] in multiset(s);
    forall i | 0 <= i < |s|
      ensures key(r[0]) <= key(s[i]) <= key(r[|s| - 1])
    {
      SortedBounds(r, s[i], key);
    }
  }

  lemma SortedBounds<T>(r: seq<T>, y: T, key: T -> int)
    requires SortedBy(r, key) && y in multiset(r)
    ensures key(r[0]) <= key(y) <= key(r[|r| - 1])
  {
    var k :| 0 <= k < |r| && r[k] == y;
  }

  /** The first `n` elements of the stable sort by `key` (Python's
      `sorted(s, key=key)[:n]`): the `n` elements with the least keys. */
  function TakeSmallest<T>(s: seq<T>, key: T -> int, n: int): (r: seq<T>)
    ensures SortedBy(r, key)
    ensures multiset(r) <= multiset(s)
    ensures 0 <= n ==> |r| == if n < |s| then n else |s|
    ensures n >= |s| ==> multiset(r) == multiset(s)
    ensures forall x, i :: x in multiset(s) - multiset(r) && 0 <= i < |r| ==> key(r[i]) <= key(x)
    ensures forall k :: Filter(r, KeyIs(key, k)) <= Filter(s, KeyIs(key, k))
  {
    var sorted := SortBy(s, key);
    var r := Prefix(sorted, n);
    assert r == sorted[..|r|];
    PrefixOfSorted(sorted, key, |r|);
    SameElements(s, sorted);
    PrefixStable(s, key, |r|);
    r
  }

  /** The elements whose key is `k`. */
  function KeyIs<T>(key: T -> int, k: int): T -> bool
  {
    x => key(x) == k
  }

  /** Sorting a sequence whose keys are all equal leaves it as it is. */
  lemma {:induction false} SortByConstant<T>(t: seq<T>, key: T -> int, k: int)
    requires forall i :: 0 <= i < |t| ==> key(t[i]) == k
    ensures SortBy(t, key) == t
  {
    if |t| > 0 {
      SortByConstant(t[1..], key, k);
      InsertBeforeLarger(t[0], t[1..], key);
      assert t == [t[0]] + t[1..];
    }
  }

  /** Stability: the elements of any one key come out of the sort in their
      input order. */
  lemma SortByStable<T>(s: seq<T>, key: T -> int, k: int)
    ensures Filter(SortBy(s, key), KeyIs(key, k)) == Filter(s, KeyIs(key, k))
  {
    FilterSortBy(s, key, KeyIs(key, k));
    SortByConstant(Filter(s, KeyIs(key, k)), key, k);
  }

  /** Filtering a prefix gives a prefix of the filtered whole. */
  lemma FilterPrefix<T>(s: seq<T>, m: int, p: T -> bool)
    requires 0 <= m <= |s|
    ensures Filter(s[..m], p) <= Filter(s, p)
  {
    assert s == s[..m] + s[m..];
    FilterConcat(s[..m], s[m..], p);
  }

  /** The elements of one key in a prefix of the sorted sequence are the
      first ones of that key in the input, in input order. */
  lemma PrefixStable<T>(s: seq<T>, key: T -> int, m: int)
    requires 0 <= m <= |s|
    ensures forall k :: Filter(SortBy(s, key)[..m], KeyIs(key, k)) <= Filter(s, KeyIs(key, k))
  {
    forall k
      ensures Filter(SortBy(s, key)[..m], KeyIs(key, k)) <= Filter(s, KeyIs(key, k))
    {
      FilterPrefix(SortBy(s, key), m, KeyIs(key, k));
      SortByStable(s, key, k);
    }
  }

  lemma SameElements<T>(a: seq<T>, b: seq<T>)
    requires multiset(a) == multiset(b)
    ensures forall x :: x in a <==> x in b
  {
    forall x
      ensures x in a <==> x in b
    {
      assert x in a <==> x in multiset(a);
      assert x in b <==> x in multiset(b);
    }
  }

  lemma PrefixOfSorted<T>(sorted: seq<T>, key: T -> int, m: nat)
    requires SortedBy(sorted, key) && m <= |sorted|
    ensures SortedBy(sorted[..m], key)
    ensures multiset(sorted[..m]) <= multiset(sorted)
    ensures forall x, i :: x in multiset(sorted) - multiset(sorted[..m]) && 0 <= i < m ==> key(sorted[i]) <= key(x)
  {
    var r := sorted[..m];
    assert sorted == r + sorted[m..];
    assert multiset(sorted) == multiset(r) + multiset(sorted[m..]);
    assert multiset(sorted) - multiset(r) == multiset(sorted[m..]);
    forall x, i | x in multiset(sorted) - multiset(r) && 0 <= i < m
      ensures key(sorted[i]) <= key(x)
    {
      assert x in multiset(sorted[m..]);
      assert x in sorted[m..];
      var k :| m <= k < |sorted| && sorted[k] == x;
    }
  }

  /** The concatenation of `f(x)` over the elements of `s`, in order: the
      list a loop builds by appending what each element contributes. */
  function FlatMap<T, U>(s: seq<T>, f: T -> seq<U>): seq<U>
  {
    if |s| == 0 then [] else f(s[0]) + FlatMap(s[1..], f)
  }

  /** Everything in the result comes from some element's part. */
  lemma {:induction false} FlatMapMembers<T, U>(s: seq<T>, f: T -> seq<U>)
    ensures forall y :: y in FlatMap(s, f) ==> exists i :: 0 <= i < |s| && y in f(s[i])
  {
    if |s| > 0 {
      FlatMapMembers(s[1..], f);
      forall y | y in FlatMap(s, f)
        ensures exists i :: 0 <= i < |s| && y in f(s[i])
      {
        if y !in f(s[0]) {
          assert y in FlatMap(s[1..], f);
          var i :| 0 <= i < |s[1..]| && y in f(s[1..][i]);
          assert y in f(s[i + 1]);
        }
      }
    }
  }

  lemma {:induction false} FlatMapConcat<T, U>(a: seq<T>, b: seq<T>, f: T -> seq<U>)
    ensures FlatMap(a + b, f) == FlatMap(a, f) + FlatMap(b, f)
  {
    if |a| == 0 {
      assert a + b == b;
    } else {
      assert (a + b)[0] == a[0];
      assert (a + b)[1..] == a[1..] + b;
      FlatMapConcat(a[1..], b, f);
    }
  }

  /** Extending the input by one element appends that element's part. */
  lemma FlatMapSnoc<T, U>(s: seq<T>, x: T, f: T -> seq<U>)
    ensures FlatMap(s + [x], f) == FlatMap(s, f) + f(x)
  {
    FlatMapConcat(s, [x], f);
    assert [x][1..] == [];
  }

  /** One more loop step over `s` appends the part of `s[k]`. */
  lemma FlatMapStep<T, U>(s: seq<T>, k: int, f: T -> seq<U>)
    requires 0 <= k < |s|
    ensures FlatMap(s[..k + 1], f) == FlatMap(s[..k], f) + f(s[k])
  {
    assert s[..k + 1] == s[..k] + [s[k]];
    FlatMapSnoc(s[..k], s[k], f);
  }

  /** The same step behind a fixed prefix, as a loop that appends to an
      accumulator sees it. */
  lemma FlatMapStepAfter<T, U>(acc: seq<U>, s: seq<T>, k: int, f: T -> seq<U>)
    requires 0 <= k < |s|
    ensures acc + FlatMap(s[..k + 1], f) == acc + FlatMap(s[..k], f) + f(s[k])
  {
    FlatMapStep(s, k, f);
    assert acc + (FlatMap(s[..k], f) + f(s[k])) == acc + FlatMap(s[..k], f) + f(s[k]);
  }

  /** Appending three pieces one at a time appends their concatenation. */
  lemma AppendThree<T>(a: seq<T>, x: seq<T>, y: seq<T>, z: seq<T>)
    ensures a + x + y + z == a + (x + y + z)
  {
  }

  /** Elements that contribute nothing leave nothing. */
  lemma {:induction false} FlatMapEmpty<T, U>(s: seq<T>, f: T -> seq<U>)
    requires forall i :: 0 <= i < |s| ==> f(s[i]) == []
    ensures FlatMap(s, f) == []
  {
    if |s| > 0 {
      FlatMapEmpty(s[1..], f);
    }
  }
}

=== FILE: strings.dfy ===
/** Python string behaviour the summaries rely on: the `<` order used by
    `sorted`, `sorted(set(...))`, ASCII lower-casing and substring search. */
module Strings {

  /** Python's `a < b` on `str`: lexicographic by code point, a proper
      prefix coming first. */
  predicate Less(a: string, b: string)
  {
    if |a| == 0 then |b| > 0
    else if |b| == 0 then false
    else a[0] < b[0] || (a[0] == b[0] && Less(a[1..], b[1..]))
  }

  lemma {:induction false} LessIrreflexive(a: string)
    ensures !Less(a, a)
  {
    if |a| > 0 {
      LessIrreflexive(a[1..]);
    }
  }

  lemma {:induction false} LessTransitive(a: string, b: string, c: string)
    requires Less(a, b) && Less(b, c)
    ensures Less(a, c)
  {
    if |a| > 0 && a[0] == b[0] && b[0] == c[0] {
      LessTransitive(a[1..], b[1..], c[1..]);
    }
  }

  lemma {:induction false} LessTotal(a: string, b: string)
    ensures a == b || Less(a, b) || Less(b, a)
  {
    if |a| > 0 && |b| > 0 && a[0] == b[0] {
      LessTotal(a[1..], b[1..]);
      if a[1..] == b[1..] {
        assert a == [a[0]] + a[1..] && b == [b[0]] + b[1..];
      }
    }
  }

  ghost predicate StrictlySorted(s: seq<string>)
  {
    forall i, j :: 0 <= i < j < |s| ==> Less(s[i], s[j])
  }

  lemma StrictlySortedDistinct(s: seq<string>, i: int, j: int)
    requires StrictlySorted(s)
    requires 0 <= i < |s| && 0 <= j < |s| && i != j
    ensures s[i] != s[j]
  {
    if i < j {
      LessIrreflexive(s[i]);
    } else {
      LessIrreflexive(s[j]);
    }
  }

  /** Adds `x` to a strictly sorted sequence unless it is already there. */
  function InsertUnique(x: string, s: seq<string>): (r: seq<string>)
    requires StrictlySorted(s)
    ensures StrictlySorted(r)
    ensures forall y :: y in r <==> y == x || y in s
  {
    if |s| == 0 then [x]
    else if x == s[0] then s
    else if Less(x, s[0]) then
      assert forall j :: 0 <= j < |s| ==> Less(x, s[j]) by {
        forall j | 0 <= j < |s|
          ensures Less(x, s[j])
        {
          if j > 0 {
            LessTransitive(x, s[0], s[j]);
          }
        }
      }
      [x] + s
    else
      var rest := InsertUnique(x, s[1..]);
      assert Less(s[0], x) by { LessTotal(x, s[0]); }
      assert s == [s[0]] + s[1..];
      assert forall j :: 0 <= j < |rest| ==> Less(s[0], rest[j]) by {
        forall j | 0 <= j < |rest|
          ensures Less(s[0], rest[j])
        {
          assert rest[j] in rest;
        }
      }
      [s[0]] + rest
  }

  /** Python's `sorted(set(values))`: each distinct value once, ascending. */
  function SortedSet(values: seq<string>): (r: seq<string>)
    ensures StrictlySorted(r)
    ensures forall y :: y in r <==> y in values
  {
    if |values| == 0 then []
    else
      assert values == [values[0]] + values[1..];
      InsertUnique(values[0], SortedSet(values[1..]))
  }

  /** A strictly sorted sequence is determined by its elements, so
      `SortedSet` is the one ascending duplicate-free listing of them. */
  lemma {:induction false} StrictlySortedUnique(a: seq<string>, b: seq<string>)
    requires StrictlySorted(a) && StrictlySorted(b)
    requires forall y :: y in a <==> y in b
    ensures a == b
  {
    assert |a| > 0 ==> a[0] in b;
    assert |b| > 0 ==> b[0] in a;
    if |a| > 0 && |b| > 0 {
      if a[0] != b[0] {
        assert a[0] in a && b[0] in b;
        var ka :| 0 <= ka < |b| && b[ka] == a[0];
        var kb :| 0 <= kb < |a| && a[kb] == b[0];
        assert ka > 0 && kb > 0;
        assert Less(a[0], a[kb]) && Less(b[0], b[ka]);
        LessTransitive(a[0], b[0], a[0]);
        LessIrreflexive(a[0]);
        assert false;
      }
      forall y
        ensures y in a[1..] <==> y in b[1..]
      {
        if y in a[1..] {
          var k :| 1 <= k < |a| && a[k] == y;
          StrictlySortedDistinct(a, 0, k);
          assert y in b;
          var m :| 0 <= m < |b| && b[m] == y;
          assert m != 0;
          assert y == b[1..][m - 1];
        }
        if y in b[1..] {
          var k :| 1 <= k < |b| && b[k] == y;
          StrictlySortedDistinct(b, 0, k);
          assert y in a;
          var m :| 0 <= m < |a| && a[m] == y;
          assert m != 0;
          assert y == a[1..][m - 1];
        }
      }
      StrictlySortedUnique(a[1..], b[1..]);
      assert a == [a[0]] + a[1..] && b == [b[0]] + b[1..];
    }
  }

  /** The length of a strictly sorted sequence is the number of distinct
      values in it. */
  lemma {:induction false} StrictlySortedCardinality(s: seq<string>)
    requires StrictlySorted(s)
    ensures |s| == |set y | y in s|
  {
    if |s| > 0 {
      StrictlySortedCardinality(s[1..]);
      var tail := set y | y in s[1..];
      assert s[0] !in tail by {
        if s[0] in tail {
          var k :| 0 <= k < |s[1..]| && s[1..][k] == s[0];
          StrictlySortedDistinct(s, 0, k + 1);
        }
      }
      assert (set y | y in s) == {s[0]} + tail;
    }
  }

  /** Python's `str.lower()` restricted to ASCII letters. */
  function LowerChar(c: char): (d: char)
    ensures 'A' <= c <= 'Z' ==> 'a' <= d <= 'z' && d as int - c as int == 32
    ensures !('A' <= c <= 'Z') ==> d == c
  {
    if 'A' <= c <= 'Z' then (c as int + 32) as char else c
  }

  function Lower(s: string): (r: string)
    ensures |r| == |s|
    ensures forall i :: 0 <= i < |s| ==> r[i] == LowerChar(s[i])
  {
    if |s| == 0 then [] else [LowerChar(s[0])] + Lower(s[1..])
  }

  /** Python's `s.find(sub) >= 0`, scanning from the left. */
  predicate Contains(s: string, sub: string)
  {
    if |sub| > |s| then false
    else if s[..|sub|] == sub then true
    else Contains(s[1..], sub)
  }

  predicate OccursAt(s: string, sub: string, i: int)
  {
    0 <= i <= |s| - |sub| && s[i..i + |sub|] == sub
  }

  /** `Contains` holds exactly when `sub` occurs at some offset of `s`. */
  lemma {:induction false} ContainsOccurrence(s: string, sub: string)
    ensures Contains(s, sub) <==> exists i :: OccursAt(s, sub, i)
  {
    if |sub| > |s| {
    } else if s[..|sub|] == sub {
      assert OccursAt(s, sub, 0);
    } else {
      ContainsOccurrence(s[1..], sub);
      if exists i :: OccursAt(s, sub, i) {
        var i :| OccursAt(s, sub, i);
        assert i != 0;
        assert s[1..][i - 1..i - 1 + |sub|] == s[i..i + |sub|];
        assert OccursAt(s[1..], sub, i - 1);
      }
      if Contains(s[1..], sub) {
        var i :| OccursAt(s[1..], sub, i);
        assert s[i + 1..i + 1 + |sub|] == s[1..][i..i + |sub|];
        assert OccursAt(s, sub, i + 1);
      }
    }
  }
}

=== FILE: summary.dfy ===
/** The triage summary rendered from an investigation bundle: the score,
    the first ten rationale entries, the account and IP summaries, the
    first eight audit rows and the reference links, each list falling back
    to a placeholder line when empty. */
module Summary {
  import opened Records
  import opened Listing
  import Seqs
  import Scoring
  import Provider
  import BundleBuilder

  const RationaleCap: nat := 10
  const AuditCap: nat := 8

  const NoRationale: string := "  - No scoring rationale available."
  const NotAvailableLine: string := "- N/A"
  const NoAuditEvents: string := "- None observed in this time window."

  datatype TriageSummary = TriageSummary(
    confidenceScore: int,
    confidenceLabel: Scoring.Label,
    rationale: seq<Line<Scoring.Reason>>,
    accounts: seq<Line<Provider.UserSummary>>,
    ips: seq<Line<Provider.IpSummary>>,
    auditEvents: seq<Line<AuditEvent>>,
    references: seq<Line<(string, string)>>)

  /** An account summary as the scorer reads it; a built summary has
      every field. */
  function AccountEvidenceOf(s: Provider.UserSummary): Scoring.AccountEvidence
  {
    Scoring.AccountEvidence(Some(s.user), Some(s.failure), Some(s.legacyAuthCount), Some(s.countries))
  }

  function IpEvidenceOf(s: Provider.IpSummary): Scoring.IpEvidence
  {
    Scoring.IpEvidence(Some(s.failures), Some(s.successes), Some(s.targetedUsersCount))
  }

  function ScoreInputOf(b: BundleBuilder.Bundle): (input: Scoring.ScoreInput)
    ensures input.detections == b.incident.detections
    ensures |input.accounts| == |b.evidence.accountSummaries|
    ensures forall i :: 0 <= i < |input.accounts| ==>
              input.accounts[i] == AccountEvidenceOf(b.evidence.accountSummaries[i])
    ensures |input.ips| == |b.evidence.ipSummaries|
    ensures forall i :: 0 <= i < |input.ips| ==> input.ips[i] == IpEvidenceOf(b.evidence.ipSummaries[i])
  {
    var accounts := b.evidence.accountSummaries;
    var ips := b.evidence.ipSummaries;
    Scoring.ScoreInput(
      b.incident.detections,
      seq(|accounts|, i requires 0 <= i < |accounts| => AccountEvidenceOf(accounts[i])),
      seq(|ips|, i requires 0 <= i < |ips| => IpEvidenceOf(ips[i])))
  }

  /** `summarize`, its list-shaped parts. */
  function Summarize(b: BundleBuilder.Bundle): (s: TriageSummary)
    ensures 0 <= s.confidenceScore <= Scoring.MaxScore
    ensures s.confidenceLabel == Scoring.LabelOf(s.confidenceScore)
    ensures |s.rationale| >= 1 && |s.rationale| <= RationaleCap
    ensures Scoring.Score(ScoreInputOf(b)).rationale == [] <==> s.rationale == [Placeholder(NoRationale)]
    ensures forall i :: 0 <= i < |s.rationale| && i < |Scoring.Score(ScoreInputOf(b)).rationale| ==>
              s.rationale[i] == Entry(Scoring.Score(ScoreInputOf(b)).rationale[i])
    ensures |s.auditEvents| >= 1 && |s.auditEvents| <= AuditCap
    ensures b.evidence.auditEvents == [] <==> s.auditEvents == [Placeholder(NoAuditEvents)]
    ensures forall i :: 0 <= i < |s.auditEvents| && i < |b.evidence.auditEvents| ==>
              s.auditEvents[i] == Entry(b.evidence.auditEvents[i])
    ensures b.evidence.accountSummaries == [] <==> s.accounts == [Placeholder(NotAvailableLine)]
    ensures b.evidence.ipSummaries == [] <==> s.ips == [Placeholder(NotAvailableLine)]
    ensures b.links == [] <==> s.references == [Placeholder(NotAvailableLine)]
    ensures Scoring.Score(ScoreInputOf(b)).rationale != [] ==>
              |s.rationale| == if |Scoring.Score(ScoreInputOf(b)).rationale| < RationaleCap
                               then |Scoring.Score(ScoreInputOf(b)).rationale| else RationaleCap
    ensures b.evidence.auditEvents != [] ==>
              |s.auditEvents| == if |b.evidence.auditEvents| < AuditCap then |b.evidence.auditEvents| else AuditCap
    ensures b.evidence.accountSummaries != [] ==> |s.accounts| == |b.evidence.accountSummaries|
    ensures forall i :: 0 <= i < |b.evidence.accountSummaries| ==> s.accounts[i] == Entry(b.evidence.accountSummaries[i])
    ensures b.evidence.ipSummaries != [] ==> |s.ips| == |b.evidence.ipSummaries|
    ensures forall i :: 0 <= i < |b.evidence.ipSummaries| ==> s.ips[i] == Entry(b.evidence.ipSummaries[i])
    ensures b.links != [] ==> |s.references| == |b.links|
    ensures forall i :: 0 <= i < |b.links| ==> s.references[i] == Entry(b.links[i])
  {
    var scored := Scoring.Score(ScoreInputOf(b));
    TriageSummary(
      confidenceScore := scored.confidenceScore,
      confidenceLabel := scored.confidenceLabel,
      rationale := ListedFirst(scored.rationale, RationaleCap, NoRationale),
      accounts := Listed(b.evidence.accountSummaries, NotAvailableLine),
      ips := Listed(b.evidence.ipSummaries, NotAvailableLine),
      auditEvents := ListedFirst(b.evidence.auditEvents, AuditCap, NoAuditEvents),
      references := Listed(b.links, NotAvailableLine))
  }

  /** The summary shows the first ten rationale entries, the first eight
      audit rows and every account, IP and link, in order. */
  lemma SummaryShows(b: BundleBuilder.Bundle)
    ensures var s := Summarize(b);
      && Items(s.rationale) == Seqs.Prefix(Scoring.Score(ScoreInputOf(b)).rationale, RationaleCap)
      && Items(s.auditEvents) == Seqs.Prefix(b.evidence.auditEvents, AuditCap)
      && Items(s.accounts) == b.evidence.accountSummaries
      && Items(s.ips) == b.evidence.ipSummaries
      && Items(s.references) == b.links
  {
    ItemsListedFirst(Scoring.Score(ScoreInputOf(b)).rationale, RationaleCap, NoRationale);
    ItemsListedFirst(b.evidence.auditEvents, AuditCap, NoAuditEvents);
    ItemsListed(b.evidence.accountSummaries, NotAvailableLine);
    ItemsListed(b.evidence.ipSummaries, NotAvailableLine);
    ItemsListed(b.links, NotAvailableLine);
  }

  /** In a bundle built offline, account `i` draws each boost exactly when
      the sign-in rows call for it: ten or more failed in-window sign-ins,
      any in-window legacy-authentication sign-in, or an in-window sign-in
      from a non-empty country other than the home country. */
  lemma BuiltAccountBoosts(ctx: BundleBuilder.IncidentContext, start: Time, end: Time,
                           signins: seq<SignIn>, audit: seq<AuditEvent>, generatedAt: string, i: int)
    requires 0 <= i < |ctx.accounts|
    ensures var b := BundleBuilder.BuildInvestigationBundle(ctx, start, end, signins, audit, generatedAt);
      var u := ctx.accounts[i];
      var rows := Seqs.Filter(signins, Provider.ForUser(u, start, end));
      var a := ScoreInputOf(b).accounts[i];
      && (Scoring.OrZero(a.failure) >= Scoring.FailureVolumeThreshold
          <==> Seqs.Count(rows, Failed) >= Scoring.FailureVolumeThreshold)
      && (Scoring.OrZero(a.legacyAuthCount) > 0 <==> Seqs.Count(rows, Provider.UsesLegacyAuth) > 0)
      && (Scoring.AnyForeign(a.countries)
          <==> exists x :: x in signins && Provider.UserRowIn(x, u, start, end)
                 && x.country.Some? && Scoring.Foreign(x.country.value))
  {
    var b := BundleBuilder.BuildInvestigationBundle(ctx, start, end, signins, audit, generatedAt);
    BundleBuilder.BundleEvidence(ctx, start, end, signins, audit, generatedAt);
    assert ScoreInputOf(b).accounts[i] == AccountEvidenceOf(b.evidence.accountSummaries[i]);
    SummaryBoosts(signins, ctx.accounts[i], start, end);
  }

  /** The scorer's reading of one user summary, in terms of the rows. */
  lemma SummaryBoosts(signins: seq<SignIn>, u: string, start: Time, end: Time)
    ensures var rows := Seqs.Filter(signins, Provider.ForUser(u, start, end));
      var a := AccountEvidenceOf(Provider.SigninSummaryForUser(signins, u, start, end));
      && Scoring.OrZero(a.failure) == Seqs.Count(rows, Failed)
      && Scoring.OrZero(a.legacyAuthCount) == Seqs.Count(rows, Provider.UsesLegacyAuth)
      && (Scoring.AnyForeign(a.countries)
          <==> exists x :: x in signins && Provider.UserRowIn(x, u, start, end)
                 && x.country.Some? && Scoring.Foreign(x.country.value))
  {
    var summary := Provider.SigninSummaryForUser(signins, u, start, end);
    ForeignIff(signins, u, start, end, summary.countries);
  }

  /** A list holding exactly the countries of a user's in-window rows has a
      foreign entry exactly when one of those rows comes from abroad. */
  lemma ForeignIff(signins: seq<SignIn>, u: string, start: Time, end: Time, cs: seq<string>)
    requires forall c :: c in cs
               <==> exists x :: x in signins && Provider.UserRowIn(x, u, start, end) && x.country == Some(c)
    ensures Scoring.AnyForeign(Some(cs))
        <==> exists x :: x in signins && Provider.UserRowIn(x, u, start, end)
               && x.country.Some? && Scoring.Foreign(x.country.value)
  {
    if exists x :: x in signins && Provider.UserRowIn(x, u, start, end)
         && x.country.Some? && Scoring.Foreign(x.country.value) {
      var x :| x in signins && Provider.UserRowIn(x, u, start, end)
               && x.country.Some? && Scoring.Foreign(x.country.value);
      assert x.country == Some(x.country.value);
      assert x.country.value in cs;
      var k :| 0 <= k < |cs| && cs[k] == x.country.value;
      assert Scoring.Foreign(cs[k]);
    }
    if Scoring.AnyForeign(Some(cs)) {
      var k :| 0 <= k < |cs| && Scoring.Foreign(cs[k]);
      assert cs[k] in cs;
    }
  }
}
